=== FILE: README.md ===
# HammerTime countdown core in Dafny

HammerTime shows a live countdown for scheduled "draws". A draw is a titled event that recurs on a weekday at an `HH:MM` start time, with a length in minutes. This project models the logic that turns a day's draws into what the screen shows:

- **Locator** (`locator.dfy`): the `getCurrentDraw` scan. It walks today's draws in list order and returns
  - `nextDraw`: the first draw that has not ended;
  - `lastEndedDraw`: the latest end seen before the scan stops.

  It is a recursive function (`Locate`) and a loop with an early exit (`ScanDraws`). Both are proved equal to reference definitions: the first open position (`FirstOpen`) and the first-listed draw with the latest end (`LatestEnded`).
- **TimerState** (`timer_state.dfy`): the `/api/timer/state` route. It derives exactly one of `running`, `pre_draw`, `complete`, `waiting` and `idle`, in that priority order, using 600-second windows and whole seconds rounded down. It attaches the display configuration only when it is newer than the client's copy.
- **Display** (`display.dfy`): the countdown page. This covers:
  - `formatTime`, whose `H:MM:SS` text reads back as its seconds and is the only text that does;
  - the `render` thresholds;
  - `tick`'s recount-and-resync rule;
  - `syncState`'s status labels and its pre_draw→waiting flicker guard.
- **DrawForm** (`draw_form.dfy`): `saveDraw`'s checks. The start time must be in `HH:MM` form within a day. The duration is read with `parseInt(…, 10)` and must lie in 1..300.
- **Calendar** (`calendar.dfy`): the admin week grid. This covers:
  - `groupByDay`;
  - the sort by `start_time`;
  - card top and height (one pixel per minute from 08:00);
  - the half-open overlap test that fades a weekly draw overlapped by a same-day override.
- **Week** (`week.dfy`): `getCurrentWeekDays`, which gives the seven days Sunday..Saturday of the current week.
- **InputMask** (`input_mask.dfy`): the keystroke mask on the start-time field.
- `text.dfy` and `options.dfy` hold shared helpers:
  - decimal digit strings (`String(n)`, `padStart`, reading digits back);
  - code-unit string order, which is `localeCompare`'s order on digit strings and valid `HH:MM` text;
  - `split` and `join`;
  - `Option`.

Time is modelled as follows:

- Instants are `int` milliseconds.
- "Today's midnight" (`dayStart`) and "now" are parameters.
- Dafny's `/` on `int` rounds toward minus infinity for a positive divisor. So `Seconds(ms) = ms / 1000` is exactly `Math.floor(ms / 1000)`, for negative differences as well.

Ties on the latest end keep the earlier-listed draw, because db.js:50 compares with a strict `>`. `Locator.TieKeepsEarlierDraw` and `Locator.TieExample` state this.

## Model

| member | source | states |
|---|---|---|
| Locator.StartOf | db.js:44-45 | `setHours(h, m)` on today's midnight: a start time within the day lands within the day, and a negative one before midnight. `Locator.AnchorSpansDuration` gives the exact offset |
| Locator.AnchorSpansDuration | db.js:43-46 | A draw's interval starts `startMinutes` minutes after midnight and lasts exactly its duration, so it is non-empty exactly when the duration is positive |
| Locator.FirstOpen | db.js:42-57 | Reference for `nextDraw`'s position: every earlier draw has ended and the draw there (if any) has not |
| Locator.LatestIndex | db.js:48-52 | Reference for `lastEndedDraw`'s position among the first k draws: its end is maximal and every earlier draw ends strictly before it |
| Locator.LatestEndedUnique | db.js:50 | At most one position satisfies the latest-end reference, so the reference names a single draw |
| Locator.CandidateIsLatest | db.js:48-52 | Applying the `drawEnd > lastEndedDraw.drawEnd` update over the first k draws leaves exactly the reference draw |
| Locator.ScanFromNext | db.js:42-58 | The scan's `nextDraw` is the draw at the first open position, or none when every draw has ended |
| Locator.ScanFromLast | db.js:42-58 | The scan stops with the candidate built from exactly the draws before the first open one |
| Locator.Locate | db.js:39-61 | `nextDraw` is the first listed draw whose end is after now, and all draws before it have ended. It is absent iff every draw (of possibly none) has ended. `lastEndedDraw` is the first-listed latest-ending draw among those before it: it ended at or before now and is absent iff no draw precedes `nextDraw` (the first draw is open, or there are no draws) |
| Locator.ScanDraws | db.js:39-61 | The `for … break` loop returns exactly `Locate`'s pair |
| Locator.EmptyDayLocatesNothing | db.js:39-61 | No draws gives neither a last ended nor a next draw |
| Locator.TieKeepsEarlierDraw | db.js:50 | When two scanned draws share the latest end, the earlier-listed one is reported |
| Locator.TieExample | db.js:50 | Draws 10:00 for 60 min and 10:30 for 30 min both end at 11:00; observed at 12:00, the first-listed is kept |
| Locator.DrawsAfterNextIgnored | db.js:53-56 | Replacing every draw after `nextDraw` leaves both results unchanged |
| Locator.LaterShortDrawNotReported | db.js:53-56 | A short draw listed after a long running one has ended, but the scan stops first and it is never `lastEndedDraw` |
| TimerState.SecondsIsFloor | index.js:41-42 | `Seconds(ms)` is the floor of `ms / 1000` for every sign |
| TimerState.DeriveState | index.js:38-105 | Each status holds iff its case condition holds and no earlier case's did. Title and message come from `nextDraw` for running, pre_draw and waiting, from `lastEndedDraw` for complete, and are "No draw scheduled" with no message for idle. `running` counts whole seconds to the end, with `targetTime` the end. `pre_draw` has 1..600 s to the start, with target the start. `complete` has 0 and target the last end. `waiting` has 0, target the next start and `nextDrawStart` set. `idle` has 0 and no target |
| TimerState.TimerResponse | index.js:22-33 | The configuration is attached iff its `updated_at` is strictly later than the client's stamp, which defaults to the epoch |
| TimerState.FirstRequestGetsConfig | index.js:23-25 | A client with no stamp receives any configuration stamped after the epoch |
| TimerState.NextDrawBeatsRecentlyEnded | index.js:38-82 | A running or imminent draw wins over a draw that ended within 600 s |
| TimerState.PreDrawAt600 | index.js:57-66 | Exactly 600 s before the start the state is pre_draw with 600 s remaining |
| TimerState.WaitingAt601 | index.js:84-95 | At 601 s before the start, when no draw ended in the last 600 s (or none ended at all), the state is waiting |
| TimerState.RunningAtStart | index.js:46-55 | At the start instant of a positive-length draw the state is running |
| TimerState.LastSubSecondIsNotPreDraw | index.js:41-57 | Less than a second before the start the whole-second count is 0, so the state is complete or waiting, never pre_draw |
| TimerState.RunningIffSomeDrawInProgress | index.js:36-55 | With rows in start order, the state is running iff some draw of the day is in progress. It then counts to the first-listed such draw |
| TimerState.StateAt | index.js:35-36 | With one clock reading for the route and the scan, the state is idle only when every draw of the day has ended, and always idle with no target on a day without draws |
| TimerState.LocateSameEnded | db.js:42-58 | The scan depends on the clock only through which draws have ended: two instants with the same ended draws give the same pair |
| TimerState.RouteState | index.js:35-36 | With separate clock readings for the route and `getCurrentDraw`, the state equals the one-reading state whenever no draw ends between the readings |
| TimerState.EndBetweenReadsShowsComplete | index.js:35-81 | One draw, 10:00 for 60 min, alone on its day: with the route reading the clock 500 ms before its end and the scan reading it at its end, the draw is running by the route's clock, yet the route reports complete |
| TimerState.NextIsEarliestUpcoming | db.js:35-57 | With rows in start order, `nextDraw` starts no later than any draw that has not ended |
| TimerState.ScenarioRunning | index.js:46-55 | Draw 19:00 for 30 min observed at 19:10: running with 1200 s left |
| TimerState.ScenarioIdle | index.js:97-105 | No draws: idle, 0 s, no target |
| TimerState.ScenarioComplete | index.js:69-81 | Draw ended 19:30, observed 19:35: complete with 0 s |
| TimerState.ScenarioWaiting | index.js:84-95 | Draw ended 19:30, next at 21:00, observed 19:41: waiting with target 21:00 |
| Display.ClockArithmetic | public/app.js:25-27 | `h*3600 + m*60 + s` recovers the seconds, and the minutes lie below 60 |
| Display.FormatTime | public/app.js:24-32 | Hours are an unpadded canonical decimal. Minutes and seconds are exactly two digits below 60. Together they add up to the input |
| Display.FormatTimeReadsBack | public/app.js:24-32 | Reading the displayed `H:MM:SS` back gives the input seconds |
| Display.ClockSecondsInverse | public/app.js:25-27 | The hour/minute/second split of `h*3600 + m*60 + s` is `h`, `m`, `s` when `m`, `s` < 60 |
| Display.ReadClockOnlyFromFormatTime | public/app.js:29-31 | Any clock text that reads back as n is exactly `formatTime(n)`'s text: the display form is unique |
| Display.Render | public/app.js:53-72 | The clock shows iff the status is pre_draw, running or complete; otherwise no running, warning or critical class is set. `warning` is set iff remaining < 300, `critical` iff ≤ 0, so critical implies warning. The clock reads `max(remaining, 0)` |
| Display.Tick | public/app.js:78-88 | Only active statuses change. They change only `timeRemaining`, to the whole seconds to the target, rounded down. A resync is asked for iff that count is ≤ 0 |
| Display.Sync | public/app.js:107-140 | Status, remaining time and target are always overwritten. Under the flicker guard, label and message are kept, nothing is rendered and a poll follows in 1000 ms. Otherwise the label follows the status and the page is rendered |
| Display.StatusLabel | public/app.js:133-137 | Only pre_draw, running and complete get a caption other than "No more draws today". `Display.StatusLabelInjective` shows the captions differ pairwise |
| Display.SuppressesFlicker | public/app.js:115 | The guard fires only on a change of status, and only with a next start to wait for. `Display.FlickerGuardCoversLastSubSecond` and `Display.FlickerGuardMissesRecentEnd` show when it does and does not |
| Display.StatusLabelInjective | public/app.js:133-137 | The four fixed labels are pairwise different |
| Display.LabelIdentifiesStatus | public/app.js:129-140 | Outside the flicker guard, equal labels mean equal statuses |
| Display.ConfigDeliveredOnce | public/app.js:102-105 | After the client applies a configuration it is not sent again, but any later one is |
| Display.TickAgreesWithServer | public/app.js:78-82 | While a draw runs, each tick's recount equals the route's `timeRemaining` at that instant |
| Display.FreshStateColours | public/app.js:53-66 | A fresh pre_draw page is never critical, and warns iff fewer than 300 s remain. A fresh complete page is critical |
| Display.CompleteTicksAlwaysResync | public/app.js:84-86 | In the complete state the target has passed, so every tick resyncs |
| Display.FlickerGuardCoversLastSubSecond | public/app.js:114-120 | In the last sub-second before a start, when no draw ended in the last 600 s, the route says waiting, and a page counting down keeps its label and skips rendering |
| Display.FlickerGuardMissesRecentEnd | public/app.js:107-140 | In that sub-second, when a draw ended less than 600 s ago, the route says complete, and the page switches to "Time's Up!" and renders |
| Text.ToDecimal | public/app.js:29 | `h.toString()` is canonical, reads back as h, and has one digit iff h < 10 |
| Text.ToDecimalOfValue | public/app.js:29 | Every canonical digit string is `toString` of its value |
| Text.Pad2 | public/app.js:30 | `padStart(2, '0')` of n is all digits and reads back as n. It is exactly two characters iff n < 100 |
| Text.TwoDigitsRoundTrip | public/app.js:30-31 | Every two-digit string is the padded text of its value |
| Text.LexLessTotal | public/admin.js:92 | The code-unit order used for `localeCompare` orders any two different strings one way |
| Text.LexLessTransitive | public/admin.js:92 | The order is transitive |
| Text.LexLessTwoDigits | public/admin.js:92 | On two-digit strings the order is the numeric order |
| Text.JoinSplit | public/admin.js:348 | Joining the pieces of `split` with the separator restores the text |
| DrawForm.FormatHHMMIsValid | public/admin.js:267-273 | Every hour 0..23 and minute 0..59 written `HH:MM` passes the start-time rule and reads back as that hour and minute |
| DrawForm.ValidStartTimeIsFormatted | public/admin.js:267-273 | Every accepted start time is the `HH:MM` text of its hour and minute |
| DrawForm.LexOrderIsTimeOrder | public/admin.js:92 | On valid `HH:MM` strings, sort order equals order of minutes since midnight |
| DrawForm.ParseInt | public/admin.js:266 | `parseInt(text, 10)`: empty text is `NaN`, and text starting with a digit gives a non-negative number. `DrawForm.ParseIntReadsDigits`, `DrawForm.ParseIntReadsDecimal` and `DrawForm.ParseIntNaN` characterise it fully |
| DrawForm.ParseIntReadsDigits | public/admin.js:266 | `parseInt` reads a leading digit run, whatever non-digit follows it |
| DrawForm.ParseIntReadsDecimal | public/admin.js:266 | `parseInt` reads back the decimal text of every number, with any non-digit suffix |
| DrawForm.ParseIntNaN | public/admin.js:266 | `parseInt` is NaN iff no digit follows the whitespace and optional sign |
| DrawForm.CheckDraw | public/admin.js:265-284 | A bad start time is reported iff the start time breaks the rule. The form is accepted iff the start time is valid and the duration parses to 1..300 |
| DrawForm.AcceptsEveryWellFormed | public/admin.js:265-284 | Every `HH:MM` time with a decimal duration 1..300 is accepted with that duration |
| DrawForm.AcceptsOnlyWellFormed | public/admin.js:267-279 | An accepted start time is the `HH:MM` text of its own hour and minute |
| Calendar.BucketEmpty | public/admin.js:22-29 | A key that no draw has gets an empty bucket |
| Calendar.GroupByDay | public/admin.js:22-29 | The keys are exactly the keys of the draws (date, else weekday). Each bucket is that key's draws in input order |
| Calendar.BucketsPartition | public/admin.js:22-29 | Each draw occurs in its own key's bucket as often as in the input and in no other, so the buckets form a permutation of the input |
| Calendar.BucketKeepsOrder | public/admin.js:25-27 | The bucket of a concatenation is the concatenation of buckets: relative order is kept |
| Calendar.InsertByStart | public/admin.js:92 | Inserting into a column sorted by `start_time` (code-unit order) keeps it sorted and adds exactly the one draw |
| Calendar.SortByStart | public/admin.js:92 | The sort returns a permutation of its input in `start_time` order (code-unit order, which is the numeric time order on valid `HH:MM` by `DrawForm.LexOrderIsTimeOrder`) |
| Calendar.StartMinutes | public/admin.js:99-100 | `split(":")` then `h * 60 + m`: never negative, and no minutes without a colon. `Calendar.StartMinutesOfValid` gives the value on valid `HH:MM` |
| Calendar.StartMinutesOfValid | public/admin.js:99-100 | A valid `HH:MM` splits into `h*60 + m` |
| Calendar.TouchingDoNotOverlap | public/admin.js:149 | Intervals that only touch do not overlap |
| Calendar.OverlapsSymmetric | public/admin.js:149 | The overlap test is symmetric |
| Calendar.OverlapsAnyIff | public/admin.js:149 | `some` over the ranges holds iff one range overlaps |
| Calendar.OverrideRanges | public/admin.js:96-103 | The ranges of the day's overrides all start at or after midnight. `Calendar.RangesOverlapIff` ties them to the overrides of the day |
| Calendar.NoOverridesNoRanges | public/admin.js:96-103 | A day without overrides has no override ranges |
| Calendar.RangesOverlapIff | public/admin.js:96-103 | An interval meets some override range iff it overlaps some override of the day whose start parses |
| Calendar.Faded | public/admin.js:144-150 | An override, or any draw on a day with no override ranges, is never faded. `Calendar.FadedIffOverlappedByOverride` gives the full condition |
| Calendar.FadedIffOverlappedByOverride | public/admin.js:144-150 | A draw is faded iff it is a weekly draw whose interval overlaps an override of the day |
| Calendar.DayCards | public/admin.js:92-150 | The column's cards show a permutation of the day's bucket in `start_time` order. Each has its start offset as top and its duration as height, and is faded against the column's overrides |
| Calendar.CardFadedIffOverlapped | public/admin.js:144-150 | A card is faded iff it shows a weekly draw that an override in its column overlaps; an override's card never is |
| Calendar.TopOfValid | public/admin.js:139-141 | A valid start time places a card `h*60 + m - 480` pixels down |
| Calendar.CardPlacedByTime | public/admin.js:139-142 | A card's top is its start in minutes after 08:00 and its height is its duration |
| Calendar.TopsInOrder | public/admin.js:139-141 | Of two valid start times in sort order, the first card's top is not lower |
| Calendar.CardsRunDown | public/admin.js:139-141 | Neighbouring cards with valid times run top to bottom |
| Week.WeekdayOf | public/admin.js:317-318 | The weekday of a day is read off any whole-week decomposition |
| Week.CurrentWeekDays | public/admin.js:315-331 | Seven consecutive days from a Sunday. Entry i is labelled `daysOfWeek[i]`, which is its own weekday's name. Today lies in the window at index `getDay()` |
| Week.SameWeekSameStrip | public/admin.js:315-331 | Every day of a week produces the same seven days |
| InputMask.KeepAllowed | public/admin.js:338 | Only digits and colons remain. Text made of those is unchanged, and a single disallowed character is removed |
| InputMask.KeepAllowedConcat | public/admin.js:338 | The filter distributes over concatenation, so it keeps every allowed character of any text, in order, and drops the rest |
| InputMask.InsertColon | public/admin.js:342-344 | A text longer than two characters whose third character is not a colon gets a colon inserted at index 2: the first two characters and all the rest are kept around it. Any other text is unchanged |
| InputMask.DropEarlierColons | public/admin.js:346 | At most one colon remains, and one remains iff there was one |
| InputMask.DropEarlierColonsKeepsLast | public/admin.js:346 | `a:b`, with b colon-free, becomes a-without-colons, then the colon, then b |
| InputMask.LimitField | public/admin.js:354-356 | A field over its maximum is cut to its first digit, and a field within it is kept. Either way the result is at most two digits within the maximum |
| InputMask.SplitOneColon | public/admin.js:348-349 | A text with one colon splits into the parts around it; one without is a single part |
| InputMask.Mask | public/admin.js:337-360 | The result has only digits and at most one colon, and is at most 5 long. With a colon, the hour part is ≤ 2 digits and ≤ 23 and the minute part ≤ 2 digits and ≤ 59. Without one, it is ≤ 2 digits |
| InputMask.MaskKeepsValidTime | public/admin.js:337-360 | A complete valid `HH:MM` is left unchanged |
| InputMask.FullMaskIsValidTime | public/admin.js:337-360 | A five-character result is a valid start time |

## Left out

- auth.js (JWT and bcrypt are calls into libraries), Express routing, status codes, JSON and ISO-8601 serialisation, SQLite storage and the SQL queries. The rows' `ORDER BY start_time` appears as the `SortedByStart` precondition where a property needs it.
- `fetch`, the DOM, CSS updates (`applyConfig` and the config panel), and `setInterval`/`setTimeout` scheduling. A scheduled retry is the value `retryAfterMs`. A rendered page is the value `View`.
- Time zones and daylight saving. `dayStart` (today's local midnight) and today's weekday are inputs. `setHours` is taken as `dayStart + (h*60 + m)*60000`.
- Locator.StartOf: draws carry their start as minutes since midnight. The `split(":").map(Number)` parse of the stored text, with `NaN` for malformed text, is not modelled. No validation of stored records is modelled either, since the route does none.
- Display.Sync: the waiting label's time of day comes from `toLocaleTimeString`, whose output depends on the locale. It is kept as the instant (`NextDrawAt`).
- TimerState.TimerResponse: the client's `lastConfigSeenAt` is a number or absent. An unparsable stamp, whose comparison is always false in JavaScript, is not modelled. Neither is a missing configuration row. `updated_at` is an instant here. In the program it is SQLite `CURRENT_TIMESTAMP` text without a time zone (db.js:24), which the server (index.js:25) and the browser (public/app.js:104) each parse in their own zone.
- Display.ConfigDeliveredOnce: holds only when the server's and the browser's time zones agree, since both parse the zone-less `updated_at` text in their own zone. When the browser's zone is ahead of the server's, the configuration is sent again on every poll.
- DrawForm.ParseInt: the value is exact, whereas JavaScript numbers lose precision above 2^53.
- Calendar.StartMinutes: a start-time part counts as a number only when it is a plain digit string. Strings that `Number` or `parseInt` would still read, such as `" 7"` or `"7a"`, are taken as `NaN`. So is an empty part: `Number("")` is 0, so an override stored as `"19:"` gets a range from minute 1140 in the page (public/admin.js:99-100), while the model gives it none.
- Week.CurrentWeekDays: dates are day numbers (day 0 is 1970-01-01, a Thursday). The `YYYY-MM-DD` text is not produced.
- The current-time line of the admin grid (public/admin.js:121-134), which depends on the wall clock.
- The tab strip and "(Override)" markers of the admin page (`renderTabs`, `is_override` badges), which only render.
- Date overrides are not merged into a day's draws. `getCurrentDraw` reads only today's weekly rows (db.js:32-37), and overrides only fade cards (public/admin.js:96-150).
- The route does not validate stored start times, and neither does the model.
- Calendar.SortByStart: the comparator is code-unit order, which agrees with `localeCompare` on valid `HH:MM` text (and on digit strings) but not in general. Under default collation a colon ranks below digits, so `"1:30"` sorts before `"10:00"` in the page and after it in the model. Such rows can be stored, because draws are saved without checking (index.js:124-131).
- Calendar.InsertByStart: the same code-unit comparator as `Calendar.SortByStart`.
- Calendar.SortByStart: stability (equal start times keep their input order) is not stated.
- TimerState.StateAt: the route and `getCurrentDraw` read the clock separately (index.js:35, db.js:29). `StateAt` uses one instant for both. `TimerState.RouteState` keeps the two readings and agrees with `StateAt` unless a draw ends between them.
- `formatTime`'s HTML markup (the seconds in a smaller span) is not modelled; `Display.Visible` is the text a reader sees.

=== FILE: calendar.dfy ===
/** The admin week calendar (public/admin.js): grouping the week's draws by day,
    sorting a day by `start_time`, placing each draw as a card on a grid that
    starts at 08:00 with one pixel per minute, and fading a weekly draw that an
    override on the same day overlaps. */
module Calendar {
  import opened Options
  import opened Text
  import opened DrawForm

  /** `START_HOUR * 60`: the grid's first minute of the day. */
  const GridStartMinutes := 480

  /** A draw as the admin page receives it: a weekly draw (`day_of_week`) or a
      dated override (`date`, `is_override`). */
  datatype Entry = Entry(
    date: Option<string>,
    dayOfWeek: string,
    title: string,
    message: Option<string>,
    startTime: string,
    durationMinutes: int,
    isOverride: bool)

  /** `draw.date || draw.day_of_week`: an empty date counts as absent. */
  function GroupKey(e: Entry): string {
    if e.date.Some? && e.date.value != "" then e.date.value else e.dayOfWeek
  }

  /** Reference for one bucket: the entries with key `k`, in input order. */
  function Bucket(draws: seq<Entry>, k: string): seq<Entry>
    decreases |draws|
  {
    if |draws| == 0 then []
    else
      var init := Bucket(draws[..|draws| - 1], k);
      if GroupKey(draws[|draws| - 1]) == k then init + [draws[|draws| - 1]] else init
  }

  lemma {:induction false} BucketEmpty(draws: seq<Entry>, k: string)
    requires forall i :: 0 <= i < |draws| ==> GroupKey(draws[i]) != k
    ensures Bucket(draws, k) == []
    decreases |draws|
  {
    if |draws| > 0 {
      BucketEmpty(draws[..|draws| - 1], k);
    }
  }

  /** `groupByDay`: a fold that appends each draw to the bucket of its key. The
      keys are exactly the keys of the input and each bucket is the input's
      entries with that key, in input order. */
  function GroupByDay(draws: seq<Entry>): (r: map<string, seq<Entry>>)
    ensures forall k :: k in r <==> exists i :: 0 <= i < |draws| && GroupKey(draws[i]) == k
    ensures forall k :: k in r ==> r[k] == Bucket(draws, k)
    decreases |draws|
  {
    if |draws| == 0 then map[]
    else
      var init := draws[..|draws| - 1];
      var acc := GroupByDay(init);
      var d := draws[|draws| - 1];
      var k := GroupKey(d);
      if k !in acc then
        BucketEmpty(init, k);
        acc[k := [d]]
      else
        acc[k := acc[k] + [d]]
  }

  /** Every draw lands in exactly one bucket, and all its copies land there:
      together the buckets are a permutation of the input. */
  lemma {:induction false} BucketsPartition(draws: seq<Entry>, k: string, x: Entry)
    ensures multiset(Bucket(draws, k))[x] == if GroupKey(x) == k then multiset(draws)[x] else 0
    decreases |draws|
  {
    if |draws| > 0 {
      var init := draws[..|draws| - 1];
      BucketsPartition(init, k, x);
      assert draws == init + [draws[|draws| - 1]];
    }
  }

  /** Buckets keep relative order: the bucket of a concatenation is the
      concatenation of the buckets. */
  lemma {:induction false} BucketKeepsOrder(a: seq<Entry>, b: seq<Entry>, k: string)
    ensures Bucket(a + b, k) == Bucket(a, k) + Bucket(b, k)
    decreases |b|
  {
    if |b| == 0 {
      assert a + b == a;
    } else {
      var b' := b[..|b| - 1];
      BucketKeepsOrder(a, b', k);
      assert (a + b)[..|a + b| - 1] == a + b';
    }
  }

  /** Adjacent entries are in code-unit order of `start_time`, which is the
      `localeCompare` order on valid `HH:MM` text (`LexOrderIsTimeOrder`). */
  predicate StartsInOrder(s: seq<Entry>) {
    forall i :: 0 <= i < |s| - 1 ==> !LexLess(s[i + 1].startTime, s[i].startTime)
  }

  function InsertByStart(e: Entry, s: seq<Entry>): (r: seq<Entry>)
    requires StartsInOrder(s)
    ensures StartsInOrder(r)
    ensures multiset(r) == multiset(s) + multiset{e}
    ensures |r| == |s| + 1
    ensures r[0] == e || (|s| > 0 && r[0] == s[0])
    decreases |s|
  {
    if |s| == 0 then [e]
    else if LexLess(e.startTime, s[0].startTime) then
      LexLessAsymmetric(e.startTime, s[0].startTime);
      [e] + s
    else
      var rest := InsertByStart(e, s[1..]);
      assert s == [s[0]] + s[1..];
      [s[0]] + rest
  }

  /** `.slice().sort((a, b) => a.start_time.localeCompare(b.start_time))` as an
      insertion sort: the result is in order and a permutation of its input. */
  function SortByStart(s: seq<Entry>): (r: seq<Entry>)
    ensures StartsInOrder(r)
    ensures multiset(r) == multiset(s)
    decreases |s|
  {
    if |s| == 0 then []
    else
      var init := s[..|s| - 1];
      assert s == init + [s[|s| - 1]];
      InsertByStart(s[|s| - 1], SortByStart(init))
  }

  /** A `start_time` part read as a number; only plain digit strings are read. */
  function ClockNumber(part: string): Option<nat> {
    if |part| > 0 && AllDigits(part) then Some(Value(part)) else None
  }

  /** `const [h, m] = start_time.split(":")` then `h * 60 + m`, or `None` for `NaN`. */
  function StartMinutes(startTime: string): (r: Option<int>)
    ensures r.Some? ==> r.value >= 0
    ensures ':' !in startTime ==> r.None?
  {
    var parts := Split(startTime, ':');
    assert ':' !in startTime ==> parts == [startTime] by {
      if ':' !in startTime {
        SplitNone(startTime, ':');
      }
    }
    if |parts| >= 2 && ClockNumber(parts[0]).Some? && ClockNumber(parts[1]).Some? then
      Some(ClockNumber(parts[0]).value * 60 + ClockNumber(parts[1]).value)
    else None
  }

  /** An accepted `HH:MM` start time is read as its minutes since midnight. */
  lemma StartMinutesOfValid(s: string)
    requires IsValidStartTime(s)
    ensures StartMinutes(s) == Some(MinutesOfDay(s))
  {
    HHMMParts(s);
    var hh, mm := s[..2], s[3..];
    assert ':' !in hh by { assert hh == [s[0], s[1]]; }
    assert ':' !in mm by { assert mm == [s[3], s[4]]; }
    SplitAt(hh, ':', mm);
    SplitNone(mm, ':');
    assert s == hh + [':'] + mm;
  }

  /** A minute interval `[start, end)`. */
  datatype Interval = Interval(start: int, end: int)

  /** `aStart < bEnd && aEnd > bStart`: half-open intervals that share a minute. */
  predicate Overlaps(a: Interval, b: Interval) {
    a.start < b.end && a.end > b.start
  }

  /** Touching intervals do not overlap. */
  lemma TouchingDoNotOverlap(a: Interval, b: Interval)
    requires a.end == b.start || b.end == a.start
    ensures !Overlaps(a, b) && !Overlaps(b, a)
  {
  }

  lemma OverlapsSymmetric(a: Interval, b: Interval)
    ensures Overlaps(a, b) <==> Overlaps(b, a)
  {
  }

  function IntervalOf(e: Entry): Option<Interval> {
    match StartMinutes(e.startTime)
    case Some(s) => Some(Interval(s, s + e.durationMinutes))
    case None => None
  }

  /** `overrideRanges`: the intervals of the day's overrides. An override whose
      start does not parse has a `NaN` range that no comparison can satisfy, so
      it is left out here. */
  function OverrideRanges(day: seq<Entry>): (r: seq<Interval>)
    ensures forall k :: 0 <= k < |r| ==> 0 <= r[k].start
    decreases |day|
  {
    if |day| == 0 then []
    else
      var init := OverrideRanges(day[..|day| - 1]);
      var e := day[|day| - 1];
      if e.isOverride && IntervalOf(e).Some? then init + [IntervalOf(e).value] else init
  }

  /** A day without overrides has no override ranges, so nothing in it is faded. */
  lemma {:induction false} NoOverridesNoRanges(day: seq<Entry>)
    requires forall j :: 0 <= j < |day| ==> !day[j].isOverride
    ensures OverrideRanges(day) == []
    decreases |day|
  {
    if |day| > 0 {
      assert !day[|day| - 1].isOverride;
      NoOverridesNoRanges(day[..|day| - 1]);
    }
  }

  /** `ranges.some(r => Overlaps(iv, r))`. */
  predicate OverlapsAny(iv: Interval, ranges: seq<Interval>)
    decreases |ranges|
  {
    |ranges| > 0 && (Overlaps(iv, ranges[0]) || OverlapsAny(iv, ranges[1..]))
  }

  lemma {:induction false} OverlapsAnyIff(iv: Interval, ranges: seq<Interval>)
    ensures OverlapsAny(iv, ranges) <==> exists j :: 0 <= j < |ranges| && Overlaps(iv, ranges[j])
    decreases |ranges|
  {
    if |ranges| > 0 {
      OverlapsAnyIff(iv, ranges[1..]);
      if exists j :: 0 <= j < |ranges| && Overlaps(iv, ranges[j]) {
        var j :| 0 <= j < |ranges| && Overlaps(iv, ranges[j]);
        if j > 0 {
          assert ranges[1..][j - 1] == ranges[j];
        }
      }
    }
  }

  /** `faded`: a weekly draw some override range overlaps. */
  predicate Faded(e: Entry, ranges: seq<Interval>)
    ensures e.isOverride || |ranges| == 0 ==> !Faded(e, ranges)
  {
    && !e.isOverride
    && IntervalOf(e).Some?
    && OverlapsAny(IntervalOf(e).value, ranges)
  }

  /** An entry of the day that is an override with a readable start and whose
      interval overlaps `iv`. */
  predicate OverlappingOverride(day: seq<Entry>, j: int, iv: Interval) {
    0 <= j < |day| && day[j].isOverride && IntervalOf(day[j]).Some? && Overlaps(iv, IntervalOf(day[j]).value)
  }

  lemma {:induction false} RangesOverlapIff(day: seq<Entry>, iv: Interval)
    ensures (exists j :: 0 <= j < |OverrideRanges(day)| && Overlaps(iv, OverrideRanges(day)[j]))
            <==> (exists j :: OverlappingOverride(day, j, iv))
    decreases |day|
  {
    if |day| > 0 {
      var init := day[..|day| - 1];
      var e := day[|day| - 1];
      RangesOverlapIff(init, iv);
      var r := OverrideRanges(day);
      var ri := OverrideRanges(init);
      if exists j :: 0 <= j < |r| && Overlaps(iv, r[j]) {
        var j :| 0 <= j < |r| && Overlaps(iv, r[j]);
        if j < |ri| {
          assert r[j] == ri[j];
          var j' :| OverlappingOverride(init, j', iv);
          assert init[j'] == day[j'];
          assert OverlappingOverride(day, j', iv);
        } else {
          assert OverlappingOverride(day, |day| - 1, iv);
        }
      }
      if exists j :: OverlappingOverride(day, j, iv) {
        var j :| OverlappingOverride(day, j, iv);
        if j < |day| - 1 {
          assert init[j] == day[j];
          assert OverlappingOverride(init, j, iv);
          var j' :| 0 <= j' < |ri| && Overlaps(iv, ri[j']);
          assert r[j'] == ri[j'];
        } else {
          assert r == ri + [IntervalOf(e).value];
          assert r[|r| - 1] == IntervalOf(e).value;
        }
      }
    }
  }

  /** A draw of the day is faded exactly when it is a weekly draw and some
      override of the same day overlaps it; overrides are never faded, and
      touching intervals do not fade. */
  lemma FadedIffOverlappedByOverride(day: seq<Entry>, e: Entry)
    ensures Faded(e, OverrideRanges(day)) <==>
              && !e.isOverride
              && IntervalOf(e).Some?
              && exists j :: OverlappingOverride(day, j, IntervalOf(e).value)
  {
    if IntervalOf(e).Some? {
      RangesOverlapIff(day, IntervalOf(e).value);
      OverlapsAnyIff(IntervalOf(e).value, OverrideRanges(day));
    }
  }

  /** A draw card: `top` and `height` in pixels (`None` for a `NaN` top). */
  datatype Card = Card(entry: Entry, top: Option<int>, height: int, faded: bool)

  /** `(h * 60 + m) - START_HOUR * 60`: minutes after the grid's first hour. */
  function TopOf(e: Entry): Option<int> {
    match StartMinutes(e.startTime)
    case Some(m) => Some(m - GridStartMinutes)
    case None => None
  }

  function CardOf(e: Entry, ranges: seq<Interval>): Card {
    Card(e, TopOf(e), e.durationMinutes, Faded(e, ranges))
  }

  /** The draws the cards show, in column order. */
  function Entries(cards: seq<Card>): (r: seq<Entry>)
    ensures |r| == |cards|
    ensures forall i :: 0 <= i < |cards| ==> r[i] == cards[i].entry
  {
    seq(|cards|, i requires 0 <= i < |cards| => cards[i].entry)
  }

  /** One card per draw, in the draws' order. */
  function PlaceCards(draws: seq<Entry>, ranges: seq<Interval>): (cards: seq<Card>)
    ensures |cards| == |draws|
    ensures forall i :: 0 <= i < |draws| ==> cards[i] == CardOf(draws[i], ranges)
    ensures Entries(cards) == draws
  {
    seq(|draws|, i requires 0 <= i < |draws| => CardOf(draws[i], ranges))
  }

  /** The cards of one day column: the day's bucket (empty when the day has
      none), sorted by start time, each placed and faded against the day's
      overrides. */
  function DayCards(grouped: map<string, seq<Entry>>, date: string): (cards: seq<Card>)
    ensures multiset(Entries(cards)) == multiset(if date in grouped then grouped[date] else [])
    ensures StartsInOrder(Entries(cards))
    ensures forall i :: 0 <= i < |cards| ==>
              && cards[i].top == TopOf(cards[i].entry)
              && cards[i].height == cards[i].entry.durationMinutes
              && cards[i].faded == Faded(cards[i].entry, OverrideRanges(Entries(cards)))
  {
    var day := if date in grouped then grouped[date] else [];
    var draws := SortByStart(day);
    PlaceCards(draws, OverrideRanges(draws))
  }

  /** A card of the column is faded exactly when it shows a weekly draw that an
      override in the same column overlaps; an override's card never is. */
  lemma CardFadedIffOverlapped(grouped: map<string, seq<Entry>>, date: string, cards: seq<Card>, i: nat)
    requires cards == DayCards(grouped, date) && i < |cards|
    ensures var e := cards[i].entry;
            cards[i].faded <==>
              && !e.isOverride
              && IntervalOf(e).Some?
              && exists j :: OverlappingOverride(Entries(cards), j, IntervalOf(e).value)
    ensures cards[i].entry.isOverride ==> !cards[i].faded
  {
    FadedIffOverlappedByOverride(Entries(cards), cards[i].entry);
  }

  /** A well-formed start time places its card `minutes - 480` pixels down. */
  lemma TopOfValid(e: Entry)
    requires IsValidStartTime(e.startTime)
    ensures TopOf(e) == Some(MinutesOfDay(e.startTime) - GridStartMinutes)
  {
    StartMinutesOfValid(e.startTime);
  }

  /** Of two well-formed start times in sort order, the first card is not lower.
      (The step `CardsRunDown` uses for each neighbouring pair.) */
  lemma TopsInOrder(a: Entry, b: Entry)
    requires IsValidStartTime(a.startTime) && IsValidStartTime(b.startTime)
    requires !LexLess(b.startTime, a.startTime)
    ensures TopOf(a).Some? && TopOf(b).Some? && TopOf(a).value <= TopOf(b).value
  {
    TopOfValid(a);
    TopOfValid(b);
    LexOrderIsTimeOrder(b.startTime, a.startTime);
  }

  /** A card with a well-formed start time sits its start's minutes after 08:00
      down the column and is as tall as the draw is long. */
  lemma CardPlacedByTime(grouped: map<string, seq<Entry>>, date: string, cards: seq<Card>, i: nat)
    requires cards == DayCards(grouped, date) && i < |cards|
    requires IsValidStartTime(cards[i].entry.startTime)
    ensures cards[i].top == Some(MinutesOfDay(cards[i].entry.startTime) - GridStartMinutes)
    ensures cards[i].height == cards[i].entry.durationMinutes
  {
    TopOfValid(cards[i].entry);
  }

  /** Of two neighbouring cards with well-formed start times, the first is not
      below the second: the column runs top to bottom. */
  lemma CardsRunDown(grouped: map<string, seq<Entry>>, date: string, cards: seq<Card>, i: nat)
    requires cards == DayCards(grouped, date) && i + 1 < |cards|
    requires IsValidStartTime(cards[i].entry.startTime) && IsValidStartTime(cards[i + 1].entry.startTime)
    ensures cards[i].top.Some? && cards[i + 1].top.Some?
    ensures cards[i].top.value <= cards[i + 1].top.value
  {
    var es := Entries(cards);
    assert es[i] == cards[i].entry && es[i + 1] == cards[i + 1].entry;
    TopsInOrder(es[i], es[i + 1]);
  }
}

=== FILE: display.dfy ===
/** The public countdown page (public/app.js): the `H:MM:SS` clock text, the
    warning/critical thresholds of `render`, the once-a-second `tick`, and the
    status-to-label rule and flicker guard of `syncState`. Network, DOM and
    timers are outside the model: a server reply and "now" are parameters, and
    a rendered page is the value `View`. */
module Display {
  import opened Options
  import opened Text
  import opened TimerState

  /** Below this many seconds the page turns to its warning colours. */
  const WarningSeconds := 300
  /** A pre_draw-to-waiting reply this close to the start is treated as a flicker. */
  const FlickerGuardMs := 2000
  /** Delay of the extra poll scheduled after a suppressed flicker. */
  const FlickerRetryMs := 1000

  /** The three digit groups of `formatTime`. */
  datatype TimeText = TimeText(hours: string, minutes: string, seconds: string)

  /** `formatTime(seconds)` for the non-negative values `render` passes it: hours
      unpadded, minutes and seconds padded to two digits. */
  function FormatTime(seconds: nat): (r: TimeText)
    ensures Canonical(r.hours)
    ensures |r.minutes| == 2 && |r.seconds| == 2 && AllDigits(r.minutes) && AllDigits(r.seconds)
    ensures Value(r.minutes) < 60 && Value(r.seconds) < 60
    ensures ClockSeconds(Value(r.hours), Value(r.minutes), Value(r.seconds)) == seconds
  {
    var h := seconds / 3600;
    var m := (seconds % 3600) / 60;
    var s := seconds % 60;
    ClockArithmetic(seconds);
    TimeText(ToDecimal(h), Pad2(m), Pad2(s))
  }

  lemma ClockArithmetic(n: nat)
    ensures (n % 3600) / 60 < 60
    ensures (n / 3600) * 3600 + ((n % 3600) / 60) * 60 + n % 60 == n
  {
    var r := n % 3600;
    assert n == 3600 * (n / 3600) + r;
    assert r == 60 * (r / 60) + r % 60;
    assert n == 60 * (60 * (n / 3600) + r / 60) + r % 60;
    assert n % 60 == r % 60;
  }

  /** The number of seconds in `h` hours, `m` minutes and `s` seconds. */
  function ClockSeconds(h: nat, m: nat, s: nat): nat {
    h * 3600 + m * 60 + s
  }

  /** What the reader sees: `H:MM:SS`. */
  function Visible(t: TimeText): string {
    t.hours + [':'] + t.minutes + [':'] + t.seconds
  }

  /** Reading a displayed clock back into seconds. */
  function ReadClock(s: string): Option<nat> {
    var parts := Split(s, ':');
    if |parts| == 3 && Canonical(parts[0])
       && |parts[1]| == 2 && AllDigits(parts[1]) && Value(parts[1]) < 60
       && |parts[2]| == 2 && AllDigits(parts[2]) && Value(parts[2]) < 60
    then Some(ClockSeconds(Value(parts[0]), Value(parts[1]), Value(parts[2])))
    else None
  }

  lemma SplitVisible(t: TimeText)
    requires AllDigits(t.hours) && AllDigits(t.minutes) && AllDigits(t.seconds)
    ensures Split(Visible(t), ':') == [t.hours, t.minutes, t.seconds]
  {
    DigitsExclude(t.hours, ':');
    DigitsExclude(t.minutes, ':');
    DigitsExclude(t.seconds, ':');
    var tail := t.minutes + [':'] + t.seconds;
    assert Visible(t) == t.hours + [':'] + tail;
    SplitAt(t.hours, ':', tail);
    SplitAt(t.minutes, ':', t.seconds);
    SplitNone(t.seconds, ':');
  }

  /** The displayed clock reads back as the number of seconds it was made from. */
  lemma FormatTimeReadsBack(n: nat)
    ensures ReadClock(Visible(FormatTime(n))) == Some(n)
  {
    var t := FormatTime(n);
    SplitVisible(t);
    var parts := Split(Visible(t), ':');
    assert parts[0] == t.hours && parts[1] == t.minutes && parts[2] == t.seconds;
  }

  /** Conversely, every clock text that reads back as `n` is exactly the one
      `formatTime(n)` prints: the display form is unique. */
  lemma ReadClockOnlyFromFormatTime(s: string, n: nat)
    requires ReadClock(s) == Some(n)
    ensures Visible(FormatTime(n)) == s
  {
    var parts := Split(s, ':');
    JoinThree(parts, ':');
    JoinSplit(s, ':');
    var h, m, sec := Value(parts[0]), Value(parts[1]), Value(parts[2]);
    assert n == ClockSeconds(h, m, sec);
    ClockSecondsInverse(h, m, sec);
    ToDecimalOfValue(parts[0]);
    TwoDigitsRoundTrip(parts[1]);
    TwoDigitsRoundTrip(parts[2]);
    assert FormatTime(n) == TimeText(parts[0], parts[1], parts[2]);
  }

  lemma JoinThree(parts: seq<string>, sep: char)
    requires |parts| == 3
    ensures Join(parts, sep) == parts[0] + [sep] + parts[1] + [sep] + parts[2]
  {
    assert Join(parts[1..][1..], sep) == parts[2];
    assert Join(parts[1..], sep) == parts[1] + [sep] + parts[2];
  }

  lemma ClockSecondsInverse(h: nat, m: nat, s: nat)
    requires m < 60 && s < 60
    ensures var n := ClockSeconds(h, m, s);
            n / 3600 == h && (n % 3600) / 60 == m && n % 60 == s
  {
    var n := ClockSeconds(h, m, s);
    assert 0 <= m * 60 + s < 3600;
    assert n == h * 3600 + (m * 60 + s);
    assert n / 3600 == h && n % 3600 == m * 60 + s;
    assert n == (h * 60 + m) * 60 + s;
  }

  /** The page's label: a fixed text, or "Next draw: " with the start time of day
      in the browser's locale (the formatting itself is not modelled). */
  datatype Label = Plain(text: string) | NextDrawAt(start: int)

  /** `timerState` together with `lastConfigSeenAt`. `target` is `targetTimestamp`. */
  datatype ClientState = ClientState(
    status: Status,
    timeRemaining: int,
    target: int,
    lastUpdated: int,
    caption: Label,
    message: string,
    configSeenAt: Option<int>)

  /** A rendered page: label and message text, the clock (absent when its
      `innerHTML` is empty) and the body classes. */
  datatype View = View(
    caption: Label,
    message: string,
    timer: Option<TimeText>,
    running: bool,
    warning: bool,
    critical: bool,
    noTimer: bool)

  /** The statuses that show a clock: `["pre_draw", "running", "complete"]`. */
  predicate IsActive(s: Status) {
    s == PreDraw || s == Running || s == Complete
  }

  function Max0(x: int): nat {
    if x > 0 then x else 0
  }

  /** `render()`. */
  function Render(cs: ClientState): (v: View)
    ensures v.timer.Some? <==> IsActive(cs.status)
    ensures v.noTimer <==> !IsActive(cs.status)
    ensures v.running <==> IsActive(cs.status)
    ensures v.warning <==> IsActive(cs.status) && cs.timeRemaining < WarningSeconds
    ensures v.critical <==> IsActive(cs.status) && cs.timeRemaining <= 0
    ensures v.critical ==> v.warning
    ensures v.timer.Some? ==> ReadClock(Visible(v.timer.value)) == Some(Max0(cs.timeRemaining))
    ensures v.caption == cs.caption && v.message == cs.message
  {
    if IsActive(cs.status) then
      FormatTimeReadsBack(Max0(cs.timeRemaining));
      View(cs.caption, cs.message, Some(FormatTime(Max0(cs.timeRemaining))),
           true, cs.timeRemaining < WarningSeconds, cs.timeRemaining <= 0, false)
    else
      View(cs.caption, cs.message, None, false, false, false, true)
  }

  datatype TickResult = TickResult(state: ClientState, view: Option<View>, resync: bool)

  /** `tick()`: for a status with a clock, recount the whole seconds left to the
      target, render, and ask the server again once the count reaches zero. */
  function Tick(cs: ClientState, now: int): (r: TickResult)
    ensures !IsActive(cs.status) ==> r == TickResult(cs, None, false)
    ensures IsActive(cs.status) ==> r.state == cs.(timeRemaining := r.state.timeRemaining)
    ensures IsActive(cs.status) ==> 1000 * r.state.timeRemaining <= cs.target - now < 1000 * r.state.timeRemaining + 1000
    ensures IsActive(cs.status) ==> r.view == Some(Render(r.state))
    ensures r.resync <==> IsActive(cs.status) && cs.target - now < 1000
  {
    if IsActive(cs.status) then
      var s := cs.(timeRemaining := Seconds(cs.target - now));
      TickResult(s, Some(Render(s)), s.timeRemaining <= 0)
    else
      TickResult(cs, None, false)
  }

  /** The label text of every status other than waiting. */
  function StatusLabel(s: Status): (r: string)
    ensures r != "No more draws today" <==> s in {PreDraw, Running, Complete}
  {
    match s
    case PreDraw => "Draw starts in:"
    case Running => "Time remaining:"
    case Complete => "Time's Up!"
    case _ => "No more draws today"
  }

  /** The guard against a one-poll flicker from pre_draw to waiting just before
      the start. */
  predicate SuppressesFlicker(oldStatus: Status, st: TimerState, now: int)
    ensures SuppressesFlicker(oldStatus, st, now) ==> oldStatus != st.status && st.nextDrawStart.Some?
  {
    && oldStatus == PreDraw
    && st.status == Waiting
    && st.nextDrawStart.Some?
    && st.nextDrawStart.value - now <= FlickerGuardMs
  }

  datatype SyncResult = SyncResult(state: ClientState, view: Option<View>, retryAfterMs: Option<int>)

  /** `syncState()` after the reply `resp` arrives at `now`. */
  function Sync(cs: ClientState, resp: Response, now: int): (r: SyncResult)
    ensures r.state.status == resp.state.status
    ensures r.state.timeRemaining == resp.state.timeRemaining
    ensures r.state.target == resp.state.target.GetOr(0)
    ensures r.state.lastUpdated == now
    ensures r.state.configSeenAt == (if resp.config.Some? then Some(resp.config.value.updatedAt) else cs.configSeenAt)
    ensures SuppressesFlicker(cs.status, resp.state, now) ==>
              && r.state.caption == cs.caption && r.state.message == cs.message
              && r.view.None? && r.retryAfterMs == Some(FlickerRetryMs)
    ensures !SuppressesFlicker(cs.status, resp.state, now) ==>
              r.view == Some(Render(r.state)) && r.retryAfterMs.None?
    ensures !SuppressesFlicker(cs.status, resp.state, now) ==>
              && r.state.message == resp.state.message.GetOr("")
              && r.state.caption == (if resp.state.status == Waiting then NextDrawAt(resp.state.nextDrawStart.GetOr(0))
                                   else Plain(StatusLabel(resp.state.status)))
  {
    var seen := if resp.config.Some? then Some(resp.config.value.updatedAt) else cs.configSeenAt;
    var st := resp.state;
    var s := cs.(status := st.status, timeRemaining := st.timeRemaining, lastUpdated := now,
                 target := st.target.GetOr(0), configSeenAt := seen);
    if SuppressesFlicker(cs.status, st, now) then
      SyncResult(s, None, Some(FlickerRetryMs))
    else
      var caption := if st.status == Waiting then NextDrawAt(st.nextDrawStart.GetOr(0)) else Plain(StatusLabel(st.status));
      var s' := s.(caption := caption, message := st.message.GetOr(""));
      SyncResult(s', Some(Render(s')), None)
  }

  /** Outside the flicker guard the label tells the five statuses apart. */
  lemma LabelIdentifiesStatus(cs1: ClientState, r1: Response, now1: int, cs2: ClientState, r2: Response, now2: int)
    requires !SuppressesFlicker(cs1.status, r1.state, now1)
    requires !SuppressesFlicker(cs2.status, r2.state, now2)
    requires Sync(cs1, r1, now1).state.caption == Sync(cs2, r2, now2).state.caption
    ensures r1.state.status == r2.state.status
  {
    var a, b := r1.state.status, r2.state.status;
    if a != Waiting && b != Waiting {
      StatusLabelInjective(a, b);
    }
  }

  /** The four fixed labels differ pairwise: in the first letter, or for the
      two that begin `Time`, in the fifth. */
  lemma StatusLabelInjective(a: Status, b: Status)
    requires a != Waiting && b != Waiting && StatusLabel(a) == StatusLabel(b)
    ensures a == b
  {
    assert StatusLabel(a)[0] == StatusLabel(b)[0];
    assert StatusLabel(a)[4] == StatusLabel(b)[4];
  }

  /** A configuration is delivered once per change: after the client has applied
      one, the next request does not get it again, but gets any later one. */
  lemma ConfigDeliveredOnce(cs: ClientState, now: int, located: Locator.Located, config: Config, later: Config, nowSync: int)
    requires config.updatedAt > cs.configSeenAt.GetOr(0)
    requires later.updatedAt > config.updatedAt
    ensures var seen := Sync(cs, TimerResponse(now, located, config, cs.configSeenAt), nowSync).state.configSeenAt;
            && TimerResponse(now, located, config, seen).config.None?
            && TimerResponse(now, located, later, seen).config == Some(later)
  {
  }

  /** While a draw runs, the client's own recount on each tick equals what the
      server would report at that instant. */
  lemma TickAgreesWithServer(cs: ClientState, resp: Response, now0: int, nowSync: int, located: Locator.Located, now: int)
    requires resp.state == DeriveState(now0, located)
    requires resp.state.status == Running
    requires located.next.Some? && IsRunning(now, located.next.value)
    ensures var s := Sync(cs, resp, nowSync).state;
            Tick(s, now).state.timeRemaining == DeriveState(now, located).timeRemaining
  {
  }

  /** A just-fetched pre_draw state is never critical, and a complete one always is. */
  lemma FreshStateColours(cs: ClientState, resp: Response, now0: int, located: Locator.Located, nowSync: int)
    requires resp.state == DeriveState(now0, located)
    requires !SuppressesFlicker(cs.status, resp.state, nowSync)
    ensures var v := Sync(cs, resp, nowSync).view.value;
            && (resp.state.status == PreDraw ==> !v.critical && (v.warning <==> resp.state.timeRemaining < WarningSeconds))
            && (resp.state.status == Complete ==> v.critical && v.warning)
  {
  }

  /** Throughout the complete window the target lies in the past, so every tick
      asks the server again. */
  lemma CompleteTicksAlwaysResync(cs: ClientState, now: int)
    requires cs.status == Complete && cs.target <= now
    ensures Tick(cs, now).resync
  {
  }

  /** In the server's last sub-second before a start, when no draw ended in the
      last 600 s, a page that was counting down keeps its "Draw starts in:" label
      instead of flickering to waiting. */
  lemma FlickerGuardCoversLastSubSecond(cs: ClientState, last: Option<Locator.Timed>, n: Locator.Timed, now: int, config: Config)
    requires cs.status == PreDraw
    requires 0 < n.start - now < 1000
    requires last.None? || now - last.value.end >= 601000
    ensures var resp := TimerResponse(now, Locator.Located(last, Some(n)), config, cs.configSeenAt);
            var r := Sync(cs, resp, now);
            && resp.state.status == Waiting
            && r.state.caption == cs.caption && r.view.None?
  {
  }

  /** The guard covers only the waiting case: when a draw ended within the last
      600 s, the route says complete in that sub-second and the page switches to
      "Time's Up!" before the next draw starts. */
  lemma FlickerGuardMissesRecentEnd(cs: ClientState, l: Locator.Timed, n: Locator.Timed, now: int, config: Config)
    requires cs.status == PreDraw
    requires 0 < n.start - now < 1000
    requires 0 <= now - l.end < 600000
    ensures var resp := TimerResponse(now, Locator.Located(Some(l), Some(n)), config, cs.configSeenAt);
            var r := Sync(cs, resp, now);
            && resp.state.status == Complete
            && r.state.caption == Plain("Time's Up!") && r.view.Some?
  {
  }
}

=== FILE: draw_form.dfy ===
/** The checks `saveDraw` (public/admin.js) makes before a draw is sent: a
    start time in `HH:MM` form within a day, then a whole number of minutes in
    1..300 read with `parseInt(value, 10)`. */
module DrawForm {
  import opened Options
  import opened Text

  const MaxDurationMinutes := 300

  /** `/^(\d{2}):(\d{2})$/` (`\d` is an ASCII digit). */
  predicate MatchesTimePattern(s: string) {
    |s| == 5 && IsDigit(s[0]) && IsDigit(s[1]) && s[2] == ':' && IsDigit(s[3]) && IsDigit(s[4])
  }

  function HourOf(s: string): nat
    requires MatchesTimePattern(s)
  {
    assert AllDigits(s[..2]) by { assert s[..2] == [s[0], s[1]]; }
    Value(s[..2])
  }

  function MinuteOf(s: string): nat
    requires MatchesTimePattern(s)
  {
    assert AllDigits(s[3..]) by { assert s[3..] == [s[3], s[4]]; }
    Value(s[3..])
  }

  /** The start-time rule: the pattern, hours 0..23, minutes 0..59. */
  predicate IsValidStartTime(s: string) {
    MatchesTimePattern(s) && HourOf(s) <= 23 && MinuteOf(s) <= 59
  }

  function MinutesOfDay(s: string): nat
    requires IsValidStartTime(s)
  {
    HourOf(s) * 60 + MinuteOf(s)
  }

  /** The `HH:MM` text of a time of day. */
  function FormatHHMM(h: nat, m: nat): (s: string)
    requires h < 24 && m < 60
    ensures |s| == 5
  {
    Pad2(h) + ":" + Pad2(m)
  }

  /** Every time of day has an `HH:MM` text the form accepts, and it reads back
      as that time. */
  lemma FormatHHMMIsValid(h: nat, m: nat)
    requires h < 24 && m < 60
    ensures IsValidStartTime(FormatHHMM(h, m))
    ensures HourOf(FormatHHMM(h, m)) == h && MinuteOf(FormatHHMM(h, m)) == m
  {
    var s := FormatHHMM(h, m);
    assert s[..2] == Pad2(h) && s[3..] == Pad2(m);
    assert s[0] == Pad2(h)[0] && s[1] == Pad2(h)[1] && s[3] == Pad2(m)[0] && s[4] == Pad2(m)[1];
  }

  /** Every accepted start time is the `HH:MM` text of its own hour and minute:
      together with `FormatHHMMIsValid`, the form accepts exactly these texts. */
  lemma ValidStartTimeIsFormatted(s: string)
    requires IsValidStartTime(s)
    ensures s == FormatHHMM(HourOf(s), MinuteOf(s))
  {
    var hh, mm := s[..2], s[3..];
    assert HourOf(s) == Value(hh) && MinuteOf(s) == Value(mm);
    FormatOfParts(hh, mm);
    HHMMParts(s);
  }

  lemma HHMMParts(s: string)
    requires MatchesTimePattern(s)
    ensures s == s[..2] + ":" + s[3..]
  {
  }

  lemma FormatOfParts(hh: string, mm: string)
    requires |hh| == 2 && |mm| == 2 && AllDigits(hh) && AllDigits(mm) && Value(hh) < 24 && Value(mm) < 60
    ensures FormatHHMM(Value(hh), Value(mm)) == hh + ":" + mm
  {
    TwoDigitsRoundTrip(hh);
    TwoDigitsRoundTrip(mm);
  }

  /** Comparing accepted start times as strings (the `start_time` sort) orders
      them by time of day. */
  lemma LexOrderIsTimeOrder(a: string, b: string)
    requires IsValidStartTime(a) && IsValidStartTime(b)
    ensures LexLess(a, b) <==> MinutesOfDay(a) < MinutesOfDay(b)
  {
    var ha, ma, hb, mb := a[..2], a[3..], b[..2], b[3..];
    assert ha == [a[0], a[1]] && ma == [a[3], a[4]] && hb == [b[0], b[1]] && mb == [b[3], b[4]];
    assert a == ha + ([':'] + ma) && b == hb + ([':'] + mb);
    LexLessConcat(ha, [':'] + ma, hb, [':'] + mb);
    LexLessConcat([':'], ma, [':'], mb);
    LexLessIrreflexive([':']);
    LexLessTwoDigits(ha, hb);
    LexLessTwoDigits(hb, ha);
    LexLessTwoDigits(ma, mb);
    LexLessTotal(ha, hb);
    assert HourOf(a) == Value(ha) && HourOf(b) == Value(hb);
    assert MinuteOf(a) == Value(ma) && MinuteOf(b) == Value(mb);
    assert ha == hb <==> Value(ha) == Value(hb);
  }

  /** The whitespace `parseInt` skips: WhiteSpace and LineTerminator of ECMAScript. */
  predicate IsJsSpace(c: char) {
    var n := c as int;
    n == 0x09 || n == 0x0A || n == 0x0B || n == 0x0C || n == 0x0D || n == 0x20 || n == 0xA0
    || n == 0x1680 || (0x2000 <= n <= 0x200A) || n == 0x2028 || n == 0x2029 || n == 0x202F
    || n == 0x205F || n == 0x3000 || n == 0xFEFF
  }

  function TrimStart(s: string): (r: string)
    ensures |r| <= |s| && r == s[|s| - |r|..]
    ensures |r| > 0 ==> !IsJsSpace(r[0])
  {
    if |s| > 0 && IsJsSpace(s[0]) then TrimStart(s[1..]) else s
  }

  /** The longest run of digits at the front of `s`. */
  function DigitPrefix(s: string): (r: string)
    ensures AllDigits(r) && |r| <= |s| && r == s[..|r|]
    ensures |r| < |s| ==> !IsDigit(s[|r|])
  {
    if |s| > 0 && IsDigit(s[0]) then [s[0]] + DigitPrefix(s[1..]) else []
  }

  /** `parseInt(s, 10)`, with `None` for `NaN`: leading whitespace, an optional
      sign, then as many decimal digits as there are; anything after is ignored. */
  function ParseInt(s: string): (r: Option<int>)
    ensures |s| == 0 ==> r.None?
    ensures |s| > 0 && IsDigit(s[0]) ==> r.Some? && r.value >= 0
  {
    var t := TrimStart(s);
    var negative := |t| > 0 && t[0] == '-';
    var body := if |t| > 0 && (t[0] == '-' || t[0] == '+') then t[1..] else t;
    var digits := DigitPrefix(body);
    if |digits| == 0 then None
    else
      var v: int := Value(digits);
      if negative then Some(-v) else Some(v)
  }

  /** `parseInt` reads a leading run of digits, whatever non-digit text follows
      it (as in "45 min" or "1.5"). */
  lemma ParseIntReadsDigits(d: string, rest: string)
    requires |d| >= 1 && AllDigits(d)
    requires |rest| == 0 || !IsDigit(rest[0])
    ensures ParseInt(d + rest) == Some(Value(d))
  {
    var s := d + rest;
    assert s[0] == d[0];
    assert !IsJsSpace(s[0]) && s[0] != '-' && s[0] != '+';
    assert TrimStart(s) == s;
    DigitPrefixOf(d, rest);
    ParseIntOfUnsigned(s, d);
  }

  lemma ParseIntOfUnsigned(s: string, d: string)
    requires TrimStart(s) == s && |s| > 0 && s[0] != '-' && s[0] != '+'
    requires DigitPrefix(s) == d && |d| >= 1
    ensures ParseInt(s) == Some(Value(d))
  {
  }

  /** In particular it reads back the decimal text of every number. */
  lemma ParseIntReadsDecimal(n: nat, rest: string)
    requires |rest| == 0 || !IsDigit(rest[0])
    ensures ParseInt(ToDecimal(n) + rest) == Some(n)
  {
    ParseIntReadsDigits(ToDecimal(n), rest);
  }

  lemma {:induction false} DigitPrefixOf(d: string, rest: string)
    requires AllDigits(d)
    requires |rest| == 0 || !IsDigit(rest[0])
    ensures DigitPrefix(d + rest) == d
    decreases |d|
  {
    if |d| > 0 {
      assert (d + rest)[1..] == d[1..] + rest;
      DigitPrefixOf(d[1..], rest);
      assert d == [d[0]] + d[1..];
    } else {
      assert d + rest == rest;
    }
  }

  /** `parseInt` is `NaN` exactly when, after whitespace and an optional sign,
      no digit follows. */
  lemma ParseIntNaN(s: string)
    ensures var t := TrimStart(s);
            var body := if |t| > 0 && (t[0] == '-' || t[0] == '+') then t[1..] else t;
            ParseInt(s).None? <==> (|body| == 0 || !IsDigit(body[0]))
  {
  }

  datatype FormCheck = BadStartTime | BadDuration | Accepted(duration: int)

  /** The validation in `saveDraw`: the start time is checked first, then the
      duration; only an accepted form goes on to be sent. */
  function CheckDraw(startTime: string, durationText: string): (r: FormCheck)
    ensures r == BadStartTime <==> !IsValidStartTime(startTime)
    ensures r.Accepted? <==>
              && IsValidStartTime(startTime)
              && ParseInt(durationText).Some?
              && 0 < ParseInt(durationText).value <= MaxDurationMinutes
    ensures r.Accepted? ==> ParseInt(durationText) == Some(r.duration) && 1 <= r.duration <= MaxDurationMinutes
  {
    if !IsValidStartTime(startTime) then BadStartTime
    else
      match ParseInt(durationText)
      case None => BadDuration
      case Some(d) => if d <= 0 || d > MaxDurationMinutes then BadDuration else Accepted(d)
  }

  /** The form accepts every time of day in `HH:MM` form with every duration
      from 1 to 300 minutes written in decimal. */
  lemma AcceptsEveryWellFormed(h: nat, m: nat, d: nat)
    requires h < 24 && m < 60 && 1 <= d <= MaxDurationMinutes
    ensures CheckDraw(FormatHHMM(h, m), ToDecimal(d)) == Accepted(d)
  {
    FormatHHMMIsValid(h, m);
    ParseIntOfDecimal(d);
  }

  lemma ParseIntOfDecimal(n: nat)
    ensures ParseInt(ToDecimal(n)) == Some(n)
  {
    ParseIntReadsDecimal(n, "");
    assert ToDecimal(n) + "" == ToDecimal(n);
  }

  /** Only start times of that form are accepted. */
  lemma AcceptsOnlyWellFormed(startTime: string, durationText: string)
    requires CheckDraw(startTime, durationText).Accepted?
    ensures startTime == FormatHHMM(HourOf(startTime), MinuteOf(startTime))
  {
    ValidStartTimeIsFormatted(startTime);
  }
}

=== FILE: input_mask.dfy ===
/** The keystroke mask on the admin form's start-time field (public/admin.js):
    after every input event the field's text is rewritten towards `HH:MM`. */
module InputMask {
  import opened Text
  import opened DrawForm

  predicate Allowed(c: char) {
    IsDigit(c) || c == ':'
  }

  predicate AllAllowed(s: string) {
    forall i :: 0 <= i < |s| ==> Allowed(s[i])
  }

  /** At most one colon. */
  predicate OneColonAtMost(s: string) {
    forall i, j :: 0 <= i < j < |s| && s[i] == ':' ==> s[j] != ':'
  }

  /** The text with every colon removed, order kept. */
  function NoColons(s: string): (r: string)
    ensures ':' !in r
    decreases |s|
  {
    if |s| == 0 then []
    else if s[0] == ':' then NoColons(s[1..])
    else [s[0]] + NoColons(s[1..])
  }

  /** `replace(/[^0-9:]/g, "")`: the allowed characters, in order. */
  function KeepAllowed(s: string): (r: string)
    ensures AllAllowed(r)
    ensures |r| <= |s|
    ensures AllAllowed(s) ==> r == s
    ensures |s| == 1 ==> r == (if Allowed(s[0]) then s else [])
    decreases |s|
  {
    if |s| == 0 then []
    else if Allowed(s[0]) then [s[0]] + KeepAllowed(s[1..])
    else KeepAllowed(s[1..])
  }

  /** The filter works character by character: the text of `a + b` keeps the
      allowed characters of `a`, then those of `b`, in order. Together with the
      one-character case of `KeepAllowed` this pins the result down for any text. */
  lemma {:induction false} KeepAllowedConcat(a: string, b: string)
    ensures KeepAllowed(a + b) == KeepAllowed(a) + KeepAllowed(b)
    decreases |a|
  {
    if |a| > 0 {
      assert (a + b)[0] == a[0];
      assert (a + b)[1..] == a[1..] + b;
      KeepAllowedConcat(a[1..], b);
    } else {
      assert a + b == b;
    }
  }

  /** `slice(0, n)`. */
  function Prefix(s: string, n: nat): (r: string)
    ensures |r| <= n && |r| <= |s|
    ensures r == s[..|r|]
    ensures |s| <= n ==> r == s
  {
    if |s| > n then s[..n] else s
  }

  /** A colon is put at index 2 of a text longer than two characters that does
      not already have one there. */
  function InsertColon(v: string): (r: string)
    ensures AllAllowed(v) ==> AllAllowed(r)
    ensures |r| > 2 ==> r[2] == ':'
    ensures |r| <= |v| + 1
    ensures |v| <= 2 ==> r == v
    ensures ':' in v ==> ':' in r
    ensures |v| > 2 && v[2] != ':' ==> |r| == |v| + 1 && r[..2] == v[..2] && r[3..] == v[2..]
    ensures !(|v| > 2 && v[2] != ':') ==> r == v
  {
    if |v| > 2 && v[2] != ':' then v[..2] + ":" + v[2..] else v
  }

  /** `replace(/(\:)(?=.*\:)/g, "")`: a colon is removed when another colon
      follows it, so only the last colon stays. */
  function DropEarlierColons(s: string): (r: string)
    ensures OneColonAtMost(r)
    ensures ':' in r <==> ':' in s
    ensures |r| <= |s|
    ensures AllAllowed(s) ==> AllAllowed(r)
    decreases |s|
  {
    if |s| == 0 then []
    else if s[0] == ':' && ':' in s[1..] then DropEarlierColons(s[1..])
    else
      var rest := DropEarlierColons(s[1..]);
      assert s == [s[0]] + s[1..];
      [s[0]] + rest
  }

  /** Reference for the regex: a text without a colon is unchanged, and a text
      whose last colon splits it into `a` and `b` becomes `a` without its colons,
      then the colon, then `b`. */
  lemma DropEarlierColonsNone(s: string)
    requires ':' !in s
    ensures DropEarlierColons(s) == s
  {
    if |s| > 0 {
      assert s == [s[0]] + s[1..];
      DropEarlierColonsNone(s[1..]);
    }
  }

  lemma {:induction false} DropEarlierColonsKeepsLast(a: string, b: string)
    requires ':' !in b
    ensures DropEarlierColons(a + [':'] + b) == NoColons(a) + [':'] + b
    decreases |a|
  {
    var s := a + [':'] + b;
    if |a| == 0 {
      assert s == [':'] + b;
      assert s[1..] == b;
      DropEarlierColonsNone(b);
    } else {
      assert s[1..] == a[1..] + [':'] + b;
      DropEarlierColonsKeepsLast(a[1..], b);
      if a[0] == ':' {
        assert s[|a|] == ':';
        assert ':' in s[1..];
      }
    }
  }

  /** A field of the result: at most two digits with a value at most `max`. */
  predicate ClockField(f: string, max: nat) {
    |f| <= 2 && AllDigits(f) && Value(f) <= max
  }

  /** What the mask guarantees about its result: with a colon, an hour field up
      to 23 before it and a minute field up to 59 after it; without one, at most
      two digits. */
  predicate PartialTime(r: string) {
    if ':' in r then
      var i := IndexOf(r, ':');
      ClockField(r[..i], 23) && ClockField(r[i + 1..], 59)
    else
      |r| <= 2 && AllDigits(r)
  }

  /** `if (f && (isNaN(f) || +f > max)) f = f.slice(0, 1)`. A digit string is
      never `NaN` and never negative. */
  function LimitField(f: string, max: nat): (r: string)
    requires AllDigits(f) && |f| <= 2 && max >= 9
    ensures ClockField(r, max)
    ensures r == f <==> Value(f) <= max
    ensures |f| > 0 && Value(f) > max ==> r == f[..1]
    ensures |r| <= |f| && r == f[..|r|]
  {
    if |f| > 0 && Value(f) > max then
      assert Value(f[..1]) == DigitValue(f[0]);
      f[..1]
    else f
  }

  /** A text with at most one colon splits into two pieces around it, or is a
      single piece. */
  lemma SplitOneColon(v: string)
    requires OneColonAtMost(v)
    ensures var parts := Split(v, ':');
            if ':' in v then
              var i := IndexOf(v, ':');
              parts == [v[..i], v[i + 1..]]
            else parts == [v]
  {
    if ':' in v {
      var i := IndexOf(v, ':');
      assert v == v[..i] + [':'] + v[i + 1..];
      assert ':' !in v[..i];
      SplitAt(v[..i], ':', v[i + 1..]);
      SplitNone(v[i + 1..], ':');
    } else {
      SplitNone(v, ':');
    }
  }

  lemma FirstColonAt(s: string, i: nat)
    requires i < |s| && s[i] == ':' && ':' !in s[..i]
    ensures IndexOf(s, ':') == i
  {
    assert forall j :: 0 <= j < i ==> s[..i][j] == s[j];
  }

  /** The three rewriting steps before the fields are checked. */
  function Normalise(input: string): (v: string)
    ensures AllAllowed(v) && OneColonAtMost(v)
    ensures ':' !in v ==> |v| <= 2
  {
    var v1 := InsertColon(Prefix(KeepAllowed(input), 5));
    var v2 := DropEarlierColons(v1);
    if ':' !in v2 then
      assert |v1| <= 2;
      DropEarlierColonsNone(v1);
      v2
    else v2
  }

  lemma FieldsOfAllowed(v: string, i: nat)
    requires AllAllowed(v) && i <= |v|
    requires forall j :: 0 <= j < |v| && j != i ==> v[j] != ':'
    ensures AllDigits(v[..i])
    ensures i < |v| ==> AllDigits(v[i + 1..])
  {
  }

  /** An hour field and a minute field joined by the colon have the shape the
      mask promises. */
  lemma JoinedFields(h: string, m: string)
    requires ClockField(h, 23) && ClockField(m, 59)
    ensures var r := h + ":" + m;
            AllAllowed(r) && OneColonAtMost(r) && |r| <= 5 && PartialTime(r)
  {
    var r := h + ":" + m;
    DigitsExclude(h, ':');
    DigitsExclude(m, ':');
    FirstColonAt(r, |h|);
    assert r[..|h|] == h && r[|h| + 1..] == m;
  }

  /** The input handler: the text the field holds after an input event. */
  function Mask(input: string): (r: string)
    ensures AllAllowed(r) && OneColonAtMost(r)
    ensures |r| <= 5
    ensures PartialTime(r)
  {
    var v := Normalise(input);
    var parts := Split(v, ':');
    SplitOneColon(v);
    if |parts| == 2 then
      FieldsOfAllowed(v, IndexOf(v, ':'));
      var h := LimitField(Prefix(parts[0], 2), 23);
      var m := LimitField(Prefix(parts[1], 2), 59);
      JoinedFields(h, m);
      h + ":" + m
    else
      v
  }

  /** A complete, valid `HH:MM` is left as it is. */
  lemma MaskKeepsValidTime(s: string)
    requires IsValidStartTime(s)
    ensures Mask(s) == s
  {
    HHMMParts(s);
    var hh, mm := s[..2], s[3..];
    assert hh == [s[0], s[1]] && mm == [s[3], s[4]];
    assert AllAllowed(s);
    assert OneColonAtMost(s);
    DropEarlierColonsNone(mm);
    DropEarlierColonsKeepsLast(hh, mm);
    assert NoColons(hh) == hh;
    assert Normalise(s) == s;
    SplitOneColon(s);
  }

  /** A full five-character result is a valid start time. */
  lemma FullMaskIsValidTime(input: string)
    requires |Mask(input)| == 5
    ensures IsValidStartTime(Mask(input))
  {
    var r := Mask(input);
    var i := IndexOf(r, ':');
    assert r == r[..i] + [':'] + r[i + 1..];
    assert r[..2] == r[..i] && r[3..] == r[i + 1..];
  }
}

=== FILE: locator.dfy ===
/** The current-draw locator of `getCurrentDraw` (db.js): one pass over today's
    draws that finds the first draw that has not ended (`nextDraw`) and the draw
    with the latest end among those passed before it (`lastEndedDraw`).

    Instants are integer milliseconds. Today's local midnight is the parameter
    `dayStart`; the draws are the rows already selected for today's weekday. */
module Locator {
  import opened Options

  const MinuteMs := 60000

  /** One row of the `draws` table, its `start_time` already read as minutes since midnight. */
  datatype Draw = Draw(title: string, message: Option<string>, startMinutes: int, durationMinutes: int)

  /** A draw anchored to today: `{ ...draw, drawStart, drawEnd }`. */
  datatype Timed = Timed(draw: Draw, start: int, end: int)

  /** The pair `{ lastEndedDraw, nextDraw }` returned to the timer route. */
  datatype Located = Located(lastEnded: Option<Timed>, next: Option<Timed>)

  /** `drawStart.setHours(h, m, 0, 0)`: today's midnight plus the start time. */
  function StartOf(d: Draw, dayStart: int): (r: int)
    ensures 0 <= d.startMinutes < 1440 ==> dayStart <= r < dayStart + 1440 * MinuteMs
    ensures d.startMinutes < 0 <==> r < dayStart
  {
    dayStart + d.startMinutes * MinuteMs
  }

  /** `drawStart + duration_minutes * 60000`. */
  function EndOf(d: Draw, dayStart: int): int {
    StartOf(d, dayStart) + d.durationMinutes * MinuteMs
  }

  function Anchor(d: Draw, dayStart: int): (t: Timed)
    ensures t.draw == d
  {
    Timed(d, StartOf(d, dayStart), EndOf(d, dayStart))
  }

  /** A draw's anchored interval lasts exactly its duration, so it is non-empty
      exactly when the duration is positive. */
  lemma AnchorSpansDuration(d: Draw, dayStart: int)
    ensures Anchor(d, dayStart).end - Anchor(d, dayStart).start == d.durationMinutes * 60000
    ensures Anchor(d, dayStart).end > Anchor(d, dayStart).start <==> d.durationMinutes > 0
    ensures Anchor(d, dayStart).start - dayStart == d.startMinutes * 60000
  {
  }

  predicate Ended(d: Draw, dayStart: int, now: int) {
    now >= EndOf(d, dayStart)
  }

  /** The update `if (!lastEndedDraw || drawEnd > lastEndedDraw.drawEnd)`: a later
      end replaces the candidate, an equal one does not. */
  function Keep(last: Option<Timed>, t: Timed): Option<Timed> {
    if last.None? || t.end > last.value.end then Some(t) else last
  }

  /** The loop body from position `i` on, with `last` holding `lastEndedDraw` so far. */
  function ScanFrom(draws: seq<Draw>, dayStart: int, now: int, i: nat, last: Option<Timed>): Located
    requires i <= |draws|
    decreases |draws| - i
  {
    if i == |draws| then Located(last, None)
    else
      var t := Anchor(draws[i], dayStart);
      if now >= t.end then
        ScanFrom(draws, dayStart, now, i + 1, Keep(last, t))
      else
        Located(last, Some(t))
  }

  /** Reference for `nextDraw`: the first position, from `i` on, whose draw has not
      ended, or `|draws|` when every one has. */
  function FirstOpenFrom(draws: seq<Draw>, dayStart: int, now: int, i: nat): (k: nat)
    requires i <= |draws|
    ensures i <= k <= |draws|
    ensures forall j :: i <= j < k ==> Ended(draws[j], dayStart, now)
    ensures k < |draws| ==> !Ended(draws[k], dayStart, now)
    decreases |draws| - i
  {
    if i == |draws| || !Ended(draws[i], dayStart, now) then i
    else FirstOpenFrom(draws, dayStart, now, i + 1)
  }

  function FirstOpen(draws: seq<Draw>, dayStart: int, now: int): (k: nat)
    ensures k <= |draws|
    ensures forall j :: 0 <= j < k ==> Ended(draws[j], dayStart, now)
    ensures k < |draws| ==> !Ended(draws[k], dayStart, now)
  {
    FirstOpenFrom(draws, dayStart, now, 0)
  }

  /** Reference for `lastEndedDraw`: position `j` holds, among the first `k` draws,
      the earliest-listed one with the latest end. */
  predicate LatestEnded(draws: seq<Draw>, dayStart: int, k: nat, j: int) {
    && 0 <= j < k <= |draws|
    && (forall i :: 0 <= i < k ==> EndOf(draws[i], dayStart) <= EndOf(draws[j], dayStart))
    && (forall i :: 0 <= i < j ==> EndOf(draws[i], dayStart) < EndOf(draws[j], dayStart))
  }

  /** `last` is what the scan should hold after passing the first `k` draws. */
  ghost predicate LastIs(draws: seq<Draw>, dayStart: int, k: nat, last: Option<Timed>) {
    && k <= |draws|
    && (last.None? <==> k == 0)
    && (last.Some? ==> exists j :: LatestEnded(draws, dayStart, k, j) && last.value == Anchor(draws[j], dayStart))
  }

  lemma LatestEndedUnique(draws: seq<Draw>, dayStart: int, k: nat, j1: int, j2: int)
    requires LatestEnded(draws, dayStart, k, j1) && LatestEnded(draws, dayStart, k, j2)
    ensures j1 == j2
  {
    assert EndOf(draws[j2], dayStart) <= EndOf(draws[j1], dayStart);
    assert EndOf(draws[j1], dayStart) <= EndOf(draws[j2], dayStart);
  }

  /** The candidate the scan holds after passing the first `k` draws. */
  function Candidate(draws: seq<Draw>, dayStart: int, k: nat): Option<Timed>
    requires k <= |draws|
  {
    if k == 0 then None else Keep(Candidate(draws, dayStart, k - 1), Anchor(draws[k - 1], dayStart))
  }

  /** Among the first `k` draws, the position of the first-listed one with the
      latest end. */
  function LatestIndex(draws: seq<Draw>, dayStart: int, k: nat): (j: nat)
    requires 0 < k <= |draws|
    ensures LatestEnded(draws, dayStart, k, j)
    decreases k
  {
    if k == 1 then 0
    else
      var j := LatestIndex(draws, dayStart, k - 1);
      if EndOf(draws[k - 1], dayStart) > EndOf(draws[j], dayStart) then k - 1 else j
  }

  /** The candidate is the first-listed draw with the latest end. */
  lemma {:induction false} CandidateIsLatest(draws: seq<Draw>, dayStart: int, k: nat)
    requires 0 < k <= |draws|
    ensures Candidate(draws, dayStart, k) == Some(Anchor(draws[LatestIndex(draws, dayStart, k)], dayStart))
  {
    if k > 1 {
      CandidateIsLatest(draws, dayStart, k - 1);
    }
  }

  lemma {:induction false} ScanFromNext(draws: seq<Draw>, dayStart: int, now: int, i: nat, last: Option<Timed>)
    requires i <= FirstOpen(draws, dayStart, now)
    ensures var k := FirstOpen(draws, dayStart, now);
            ScanFrom(draws, dayStart, now, i, last).next == (if k < |draws| then Some(Anchor(draws[k], dayStart)) else None)
    decreases |draws| - i
  {
    var k := FirstOpen(draws, dayStart, now);
    if i < k {
      assert Ended(draws[i], dayStart, now);
      ScanFromStep(draws, dayStart, now, i, last);
      ScanFromNext(draws, dayStart, now, i + 1, Keep(last, Anchor(draws[i], dayStart)));
    } else if i < |draws| {
      assert !Ended(draws[i], dayStart, now);
    }
  }

  /** One ended draw: the scan moves on with the updated candidate. */
  lemma ScanFromStep(draws: seq<Draw>, dayStart: int, now: int, i: nat, last: Option<Timed>)
    requires i < FirstOpen(draws, dayStart, now)
    ensures ScanFrom(draws, dayStart, now, i, last) == ScanFrom(draws, dayStart, now, i + 1, Keep(last, Anchor(draws[i], dayStart)))
  {
    assert Ended(draws[i], dayStart, now);
  }

  /** At the first open draw the scan stops with the candidate it holds. */
  lemma ScanFromStop(draws: seq<Draw>, dayStart: int, now: int, i: nat, last: Option<Timed>)
    requires i == FirstOpen(draws, dayStart, now)
    ensures ScanFrom(draws, dayStart, now, i, last).lastEnded == last
  {
    if i < |draws| {
      assert !Ended(draws[i], dayStart, now);
    }
  }

  lemma {:induction false} ScanFromLast(draws: seq<Draw>, dayStart: int, now: int, i: nat)
    requires i <= FirstOpen(draws, dayStart, now)
    ensures ScanFrom(draws, dayStart, now, i, Candidate(draws, dayStart, i)).lastEnded
            == Candidate(draws, dayStart, FirstOpen(draws, dayStart, now))
    decreases |draws| - i
  {
    var last := Candidate(draws, dayStart, i);
    if i < FirstOpen(draws, dayStart, now) {
      ScanFromStep(draws, dayStart, now, i, last);
      ScanFromLast(draws, dayStart, now, i + 1);
    } else {
      ScanFromStop(draws, dayStart, now, i, last);
    }
  }

  lemma ScanFromStartFacts(draws: seq<Draw>, dayStart: int, now: int)
    ensures var k := FirstOpen(draws, dayStart, now);
            var r := ScanFrom(draws, dayStart, now, 0, None);
            && r.next == (if k < |draws| then Some(Anchor(draws[k], dayStart)) else None)
            && LastIs(draws, dayStart, k, r.lastEnded)
            && (r.next.None? <==> forall j :: 0 <= j < |draws| ==> Ended(draws[j], dayStart, now))
            && (r.next.Some? ==> r.next.value.end > now && r.next.value.draw in draws)
            && (r.lastEnded.Some? ==> r.lastEnded.value.end <= now && r.lastEnded.value.draw in draws)
  {
    ScanFromNext(draws, dayStart, now, 0, None);
    ScanFromLast(draws, dayStart, now, 0);
    var k := FirstOpen(draws, dayStart, now);
    var r := ScanFrom(draws, dayStart, now, 0, None);
    assert r.lastEnded == Candidate(draws, dayStart, k);
    if k > 0 {
      CandidateIsLatest(draws, dayStart, k);
      var j := LatestIndex(draws, dayStart, k);
      assert LatestEnded(draws, dayStart, k, j);
      assert Ended(draws[j], dayStart, now);
    }
    if k < |draws| {
      assert !Ended(draws[k], dayStart, now);
    }
  }

  /** `getCurrentDraw`: `nextDraw` is the first listed draw that has not ended and
      every draw before it has ended; `lastEndedDraw` is, among those earlier draws,
      the first-listed one with the latest end, and absent exactly when `nextDraw`
      is the first draw (or the list is empty). */
  function Locate(draws: seq<Draw>, dayStart: int, now: int): (r: Located)
    ensures var k := FirstOpen(draws, dayStart, now);
            r.next == (if k < |draws| then Some(Anchor(draws[k], dayStart)) else None)
    ensures LastIs(draws, dayStart, FirstOpen(draws, dayStart, now), r.lastEnded)
    ensures r.next.None? <==> forall j :: 0 <= j < |draws| ==> Ended(draws[j], dayStart, now)
    ensures r.next.Some? ==> r.next.value.end > now && r.next.value.draw in draws
    ensures r.lastEnded.Some? ==> r.lastEnded.value.end <= now && r.lastEnded.value.draw in draws
  {
    ScanFromStartFacts(draws, dayStart, now);
    ScanFrom(draws, dayStart, now, 0, None)
  }

  /** The `for ... of` loop with its `break`, as written. */
  method ScanDraws(draws: seq<Draw>, dayStart: int, now: int) returns (lastEnded: Option<Timed>, next: Option<Timed>)
    ensures Located(lastEnded, next) == Locate(draws, dayStart, now)
  {
    lastEnded := None;
    next := None;
    var i := 0;
    while i < |draws|
      invariant i <= |draws|
      invariant next.None?
      invariant ScanFrom(draws, dayStart, now, i, lastEnded) == Locate(draws, dayStart, now)
    {
      var t := Anchor(draws[i], dayStart);
      if now >= t.end {
        if lastEnded.None? || t.end > lastEnded.value.end {
          lastEnded := Some(t);
        }
      } else {
        next := Some(t);
        break;
      }
      i := i + 1;
    }
  }

  /** No draws today: neither a last ended nor a next draw. */
  lemma EmptyDayLocatesNothing(dayStart: int, now: int)
    ensures Locate([], dayStart, now) == Located(None, None)
  {
  }

  /** Ties on the latest end go to the draw listed first, because the scan only
      replaces its candidate on a strictly later end. */
  lemma TieKeepsEarlierDraw(draws: seq<Draw>, dayStart: int, now: int, a: nat, b: nat)
    requires a < b < FirstOpen(draws, dayStart, now)
    requires EndOf(draws[a], dayStart) == EndOf(draws[b], dayStart)
    requires forall i :: 0 <= i < FirstOpen(draws, dayStart, now) ==> EndOf(draws[i], dayStart) <= EndOf(draws[a], dayStart)
    requires forall i :: 0 <= i < a ==> EndOf(draws[i], dayStart) < EndOf(draws[a], dayStart)
    ensures Locate(draws, dayStart, now).lastEnded == Some(Anchor(draws[a], dayStart))
  {
    var k := FirstOpen(draws, dayStart, now);
    var r := Locate(draws, dayStart, now);
    assert LatestEnded(draws, dayStart, k, a);
    var j :| LatestEnded(draws, dayStart, k, j) && r.lastEnded.value == Anchor(draws[j], dayStart);
    LatestEndedUnique(draws, dayStart, k, a, j);
  }

  lemma {:induction false} ScanIgnoresTail(a: seq<Draw>, b: seq<Draw>, dayStart: int, now: int, k: nat, i: nat, last: Option<Timed>)
    requires k < |a| && k < |b| && a[..k + 1] == b[..k + 1]
    requires i <= k
    requires forall j :: i <= j < k ==> Ended(a[j], dayStart, now)
    requires !Ended(a[k], dayStart, now)
    ensures ScanFrom(a, dayStart, now, i, last) == ScanFrom(b, dayStart, now, i, last)
    decreases k - i
  {
    assert a[i] == a[..k + 1][i] == b[..k + 1][i] == b[i];
    if i < k {
      ScanIgnoresTail(a, b, dayStart, now, k, i + 1, Keep(last, Anchor(a[i], dayStart)));
    }
  }

  /** Draws listed after `nextDraw` are never examined: replacing everything after
      it leaves both results unchanged. */
  lemma DrawsAfterNextIgnored(draws: seq<Draw>, rest: seq<Draw>, dayStart: int, now: int)
    requires FirstOpen(draws, dayStart, now) < |draws|
    ensures var k := FirstOpen(draws, dayStart, now);
            Locate(draws[..k + 1] + rest, dayStart, now) == Locate(draws, dayStart, now)
  {
    var k := FirstOpen(draws, dayStart, now);
    var d := draws[..k + 1] + rest;
    assert d[..k + 1] == draws[..k + 1];
    ScanIgnoresTail(draws, d, dayStart, now, k, 0, None);
  }

  /** A short draw listed after a long running one has ended, yet the scan stops at
      the running draw and never reports the short one as last ended. */
  lemma LaterShortDrawNotReported()
    ensures var long := Draw("Long", None, 600, 120);
            var short := Draw("Short", None, 630, 15);
            var r := Locate([long, short], 0, 650 * 60000);
            && Ended(short, 0, 650 * 60000)
            && r.next == Some(Anchor(long, 0))
            && r.lastEnded == None
  {
    var long := Draw("Long", None, 600, 120);
    var short := Draw("Short", None, 630, 15);
    assert FirstOpen([long, short], 0, 650 * 60000) == 0;
  }

  /** Two draws ending at the same instant: the first-listed one is reported. */
  lemma TieExample()
    ensures var a := Draw("A", None, 600, 60);
            var b := Draw("B", None, 630, 30);
            Locate([a, b], 0, 720 * 60000).lastEnded == Some(Anchor(a, 0))
  {
    var a := Draw("A", None, 600, 60);
    var b := Draw("B", None, 630, 30);
    assert FirstOpen([a, b], 0, 720 * 60000) == 2;
    TieKeepsEarlierDraw([a, b], 0, 720 * 60000, 0, 1);
  }
}

=== FILE: options.dfy ===
/** The JavaScript `null`/`undefined` of a record field, as an explicit optional value. */
module Options {

  datatype Option<+T> = None | Some(value: T) {

    /** The carried value, or `default` when absent (JavaScript's `x ?? default`). */
    function GetOr(default: T): T {
      match this
      case Some(v) => v
      case None => default
    }
  }
}

=== FILE: text.dfy ===
/** Character-level helpers shared by the display and admin code: decimal digit
    strings, `String(n)`, `padStart`, lexicographic comparison and `split`. */
module Text {

  predicate IsDigit(c: char) {
    '0' <= c <= '9'
  }

  predicate AllDigits(s: string) {
    forall i :: 0 <= i < |s| ==> IsDigit(s[i])
  }

  lemma DigitsExclude(s: string, c: char)
    requires AllDigits(s) && !IsDigit(c)
    ensures c !in s
  {
  }

  function DigitValue(c: char): (d: nat)
    requires IsDigit(c)
    ensures d < 10
  {
    c as int - '0' as int
  }

  function DigitChar(d: nat): (c: char)
    requires d < 10
    ensures IsDigit(c) && DigitValue(c) == d
  {
    ('0' as int + d) as char
  }

  /** Decimal value of a digit string, most significant digit first; "" reads as 0
      (JavaScript's unary `+` on a string of ASCII digits). */
  function Value(s: string): nat
    requires AllDigits(s)
    decreases |s|
  {
    if |s| == 0 then 0 else 10 * Value(s[..|s| - 1]) + DigitValue(s[|s| - 1])
  }

  /** A digit string without superfluous leading zeros: the form `String(n)` produces. */
  predicate Canonical(s: string) {
    |s| >= 1 && AllDigits(s) && (s[0] != '0' || |s| == 1)
  }

  /** `String(n)` / `n.toString()` for a non-negative integer. */
  function ToDecimal(n: nat): (r: string)
    ensures Canonical(r)
    ensures Value(r) == n
    ensures |r| == 1 <==> n < 10
    ensures n < 100 ==> |r| <= 2
    ensures n >= 100 ==> |r| >= 3
    decreases n
  {
    if n < 10 then [DigitChar(n)]
    else
      var p := ToDecimal(n / 10);
      var r := p + [DigitChar(n % 10)];
      assert r[..|r| - 1] == p;
      r
  }

  lemma {:induction false} ValuePositive(s: string)
    requires |s| >= 1 && AllDigits(s) && s[0] != '0'
    ensures Value(s) >= 1
    decreases |s|
  {
    if |s| > 1 {
      var p := s[..|s| - 1];
      assert p[0] == s[0];
      ValuePositive(p);
    }
  }

  /** `ToDecimal` is onto the canonical digit strings: reading a canonical string and
      printing the number back gives the same string. */
  lemma {:induction false} ToDecimalOfValue(s: string)
    requires Canonical(s)
    ensures ToDecimal(Value(s)) == s
    decreases |s|
  {
    if |s| == 1 {
      assert ToDecimal(Value(s)) == [DigitChar(DigitValue(s[0]))];
      assert DigitChar(DigitValue(s[0])) == s[0];
    } else {
      var p := s[..|s| - 1];
      assert p[0] == s[0];
      ValuePositive(p);
      ToDecimalOfValue(p);
      var v := Value(s);
      assert v == 10 * Value(p) + DigitValue(s[|s| - 1]);
      assert v / 10 == Value(p) && v % 10 == DigitValue(s[|s| - 1]);
      assert DigitChar(DigitValue(s[|s| - 1])) == s[|s| - 1];
      assert s == p + [s[|s| - 1]];
    }
  }

  /** `s.padStart(width, fill)`. */
  function PadStart(s: string, width: nat, fill: char): (r: string)
    ensures |r| == if |s| >= width then |s| else width
    ensures r[|r| - |s|..] == s
    ensures forall i :: 0 <= i < |r| - |s| ==> r[i] == fill
  {
    if |s| >= width then s else seq(width - |s|, _ => fill) + s
  }

  /** `String(n).padStart(2, '0')`. */
  function Pad2(n: nat): (r: string)
    ensures AllDigits(r)
    ensures Value(r) == n
    ensures |r| == 2 <==> n < 100
    ensures |r| >= 2
  {
    var r := PadStart(ToDecimal(n), 2, '0');
    if n < 10 then
      PadDigit(n);
      r
    else
      r
  }

  /** A single digit is padded with one `0`, which adds nothing to its value. */
  lemma PadDigit(n: nat)
    requires n < 10
    ensures var r := PadStart(ToDecimal(n), 2, '0');
            r == ['0', DigitChar(n)] && AllDigits(r) && Value(r) == n
  {
    var r := ['0', DigitChar(n)];
    assert PadStart(ToDecimal(n), 2, '0') == r;
    assert r[..1] == ['0'];
    assert Value(r[..1]) == 0;
  }

  /** Every two-digit string is what `Pad2` prints for its value. */
  lemma TwoDigitsRoundTrip(t: string)
    requires |t| == 2 && AllDigits(t)
    ensures Value(t) < 100
    ensures Pad2(Value(t)) == t
  {
    assert t[..1] == [t[0]] && t[..1][..0] == [];
    assert Value(t[..1]) == DigitValue(t[0]);
    var v := Value(t);
    assert v == 10 * DigitValue(t[0]) + DigitValue(t[1]);
    if t[0] == '0' {
      assert v == DigitValue(t[1]);
      assert ToDecimal(v) == [DigitChar(v)];
      assert DigitChar(v) == t[1];
      assert Pad2(v) == ['0'] + [t[1]];
    } else {
      assert Canonical(t);
      ToDecimalOfValue(t);
    }
  }

  /** Lexicographic order on strings by code unit (`a < b` on JavaScript strings). */
  predicate LexLess(a: string, b: string)
    decreases |a|
  {
    if |a| == 0 then |b| > 0
    else if |b| == 0 then false
    else if a[0] != b[0] then a[0] < b[0]
    else LexLess(a[1..], b[1..])
  }

  lemma {:induction false} LexLessIrreflexive(a: string)
    ensures !LexLess(a, a)
    decreases |a|
  {
    if |a| > 0 {
      LexLessIrreflexive(a[1..]);
    }
  }

  lemma {:induction false} LexLessTotal(a: string, b: string)
    ensures a == b || LexLess(a, b) || LexLess(b, a)
    decreases |a|
  {
    if |a| > 0 && |b| > 0 && a[0] == b[0] {
      LexLessTotal(a[1..], b[1..]);
      if a[1..] == b[1..] {
        assert a == [a[0]] + a[1..] && b == [b[0]] + b[1..];
      }
    }
  }

  lemma {:induction false} LexLessTransitive(a: string, b: string, c: string)
    requires LexLess(a, b) && LexLess(b, c)
    ensures LexLess(a, c)
    decreases |a|
  {
    if |a| > 0 && a[0] == b[0] && b[0] == c[0] {
      LexLessTransitive(a[1..], b[1..], c[1..]);
    }
  }

  lemma LexLessAsymmetric(a: string, b: string)
    requires LexLess(a, b)
    ensures !LexLess(b, a)
  {
    if LexLess(b, a) {
      LexLessTransitive(a, b, a);
      LexLessIrreflexive(a);
    }
  }

  /** Comparing two strings that share a prefix length compares the prefixes
      first and the rest only on a tie. */
  lemma {:induction false} LexLessConcat(x: string, y: string, x2: string, y2: string)
    requires |x| == |x2|
    ensures LexLess(x + y, x2 + y2) <==> LexLess(x, x2) || (x == x2 && LexLess(y, y2))
    decreases |x|
  {
    if |x| > 0 {
      assert (x + y)[0] == x[0] && (x2 + y2)[0] == x2[0];
      assert (x + y)[1..] == x[1..] + y && (x2 + y2)[1..] == x2[1..] + y2;
      LexLessConcat(x[1..], y, x2[1..], y2);
      if x[0] == x2[0] && x[1..] == x2[1..] {
        assert x == [x[0]] + x[1..] && x2 == [x2[0]] + x2[1..];
      }
      if x == x2 {
        assert x[1..] == x2[1..];
      }
    } else {
      assert x + y == y && x2 + y2 == y2;
    }
  }

  lemma TwoDigitValue(p: string)
    requires |p| == 2 && AllDigits(p)
    ensures Value(p) == 10 * DigitValue(p[0]) + DigitValue(p[1])
  {
    var p1 := p[..1];
    assert p1 == [p[0]] && p1[..0] == [];
    assert Value(p1) == 10 * Value(p1[..0]) + DigitValue(p1[0]);
    assert Value(p) == 10 * Value(p1) + DigitValue(p[1]);
  }

  /** On two-digit strings the character order is the numeric order. */
  lemma LexLessTwoDigits(p: string, q: string)
    requires |p| == 2 && |q| == 2 && AllDigits(p) && AllDigits(q)
    ensures LexLess(p, q) <==> Value(p) < Value(q)
  {
    TwoDigitValue(p);
    TwoDigitValue(q);
    assert p[1..][1..] == [] && q[1..][1..] == [];
    if p[0] == q[0] {
      assert LexLess(p, q) == LexLess(p[1..], q[1..]);
      assert p[1..][0] == p[1] && q[1..][0] == q[1];
    }
  }

  /** Position of the first `c` in `s`, or `|s|` when there is none (`indexOf`, with -1 as `|s|`). */
  function IndexOf(s: string, c: char): (i: nat)
    ensures i <= |s|
    ensures i < |s| ==> s[i] == c
    ensures forall j :: 0 <= j < i ==> s[j] != c
  {
    if |s| == 0 then 0
    else if s[0] == c then 0
    else 1 + IndexOf(s[1..], c)
  }

  /** `s.split(sep)` for a one-character separator. */
  function Split(s: string, sep: char): (parts: seq<string>)
    ensures |parts| >= 1
    decreases |s|
  {
    var i := IndexOf(s, sep);
    if i == |s| then [s] else [s[..i]] + Split(s[i + 1..], sep)
  }

  /** Splitting at the first separator: the part before it is the first piece. */
  lemma SplitAt(a: string, sep: char, b: string)
    requires sep !in a
    ensures Split(a + [sep] + b, sep) == [a] + Split(b, sep)
  {
    var s := a + [sep] + b;
    var i := IndexOf(s, sep);
    assert s[|a|] == sep;
    assert i == |a|;
    assert s[..i] == a && s[i + 1..] == b;
  }

  lemma SplitNone(s: string, sep: char)
    requires sep !in s
    ensures Split(s, sep) == [s]
  {
  }

  /** `parts.join(sep)`, the inverse of `Split`. */
  function Join(parts: seq<string>, sep: char): string
    requires |parts| >= 1
  {
    if |parts| == 1 then parts[0] else parts[0] + [sep] + Join(parts[1..], sep)
  }

  lemma {:induction false} JoinSplit(s: string, sep: char)
    ensures Join(Split(s, sep), sep) == s
    decreases |s|
  {
    var i := IndexOf(s, sep);
    if i < |s| {
      var rest := Split(s[i + 1..], sep);
      assert Split(s, sep) == [s[..i]] + rest;
      assert ([s[..i]] + rest)[1..] == rest;
      JoinSplit(s[i + 1..], sep);
      assert s == s[..i] + [sep] + s[i + 1..];
    }
  }
}

=== FILE: timer_state.dfy ===
/** The `/api/timer/state` route (index.js): from `now` and the located draws it
    derives exactly one of five display states, checked in a fixed order, and
    attaches the display configuration only when it changed since the client
    last saw it. */
module TimerState {
  import opened Options
  import opened Locator

  /** Width of the countdown-to-start window and of the "time's up" window, in seconds. */
  const WindowSeconds := 600

  datatype Status = Idle | Waiting | PreDraw | Running | Complete

  /** The JSON body apart from `config`. `title` is `drawLabel` (or `nextDrawTitle`
      when waiting), `message` is `drawMessage` (or `nextDrawMessage`), `target` is
      `targetTime`, and `nextDrawStart` is present only when waiting. */
  datatype TimerState = TimerState(
    status: Status,
    timeRemaining: int,
    title: string,
    message: Option<string>,
    target: Option<int>,
    nextDrawStart: Option<int>)

  /** A row of `timer_config`; `updatedAt` is `updated_at` as an instant. */
  datatype Config = Config(backgroundColor: string, timerColor: string, statusColor: string, messageColor: string, updatedAt: int)

  datatype Response = Response(state: TimerState, config: Option<Config>)

  /** `Math.floor(ms / 1000)`: Dafny's division rounds down for a positive divisor. */
  function Seconds(ms: int): int {
    ms / 1000
  }

  lemma SecondsIsFloor(ms: int)
    ensures 1000 * Seconds(ms) <= ms < 1000 * Seconds(ms) + 1000
  {
  }

  predicate IsRunning(now: int, n: Timed) {
    n.start <= now < n.end
  }

  /** The body of the route after `getCurrentDraw()`: the first matching case wins,
      in the order running, pre_draw, complete, waiting, idle. */
  function DeriveState(now: int, located: Located): (r: TimerState)
    ensures r.status == Running <==> located.next.Some? && IsRunning(now, located.next.value)
    ensures r.status == PreDraw <==>
              && located.next.Some? && !IsRunning(now, located.next.value)
              && 1000 <= located.next.value.start - now < 601000
    ensures r.status == Complete <==>
              && (located.next.None? || (!IsRunning(now, located.next.value) && !(1000 <= located.next.value.start - now < 601000)))
              && located.lastEnded.Some? && now - located.lastEnded.value.end < 601000
    ensures r.status == Idle <==>
              located.next.None? && (located.lastEnded.None? || now - located.lastEnded.value.end >= 601000)
    ensures r.status == Waiting ==> located.next.Some?
    ensures r.status == Running ==> r.timeRemaining >= 0 && r.target == Some(located.next.value.end)
    ensures r.status == Running ==> 1000 * r.timeRemaining <= located.next.value.end - now < 1000 * r.timeRemaining + 1000
    ensures r.status == PreDraw ==> 1 <= r.timeRemaining <= WindowSeconds && r.target == Some(located.next.value.start)
    ensures r.status == PreDraw ==> 1000 * r.timeRemaining <= located.next.value.start - now < 1000 * r.timeRemaining + 1000
    ensures r.status == Complete ==> r.timeRemaining == 0 && r.target == Some(located.lastEnded.value.end)
    ensures r.status == Waiting ==> r.timeRemaining == 0 && r.target == Some(located.next.value.start) == r.nextDrawStart
    ensures r.status == Idle ==> r.timeRemaining == 0 && r.target.None?
    ensures r.nextDrawStart.Some? <==> r.status == Waiting
    ensures r.status in {Running, PreDraw, Waiting} ==>
              r.title == located.next.value.draw.title && r.message == located.next.value.draw.message
    ensures r.status == Complete ==>
              r.title == located.lastEnded.value.draw.title && r.message == located.lastEnded.value.draw.message
    ensures r.status == Idle ==> r.title == "No draw scheduled" && r.message.None?
  {
    if located.next.Some? && IsRunning(now, located.next.value) then
      var n := located.next.value;
      TimerState(Running, Seconds(n.end - now), n.draw.title, n.draw.message, Some(n.end), None)
    else if located.next.Some? && 0 < Seconds(located.next.value.start - now) <= WindowSeconds then
      var n := located.next.value;
      TimerState(PreDraw, Seconds(n.start - now), n.draw.title, n.draw.message, Some(n.start), None)
    else if located.lastEnded.Some? && Seconds(now - located.lastEnded.value.end) <= WindowSeconds then
      var l := located.lastEnded.value;
      TimerState(Complete, 0, l.draw.title, l.draw.message, Some(l.end), None)
    else if located.next.Some? then
      var n := located.next.value;
      TimerState(Waiting, 0, n.draw.title, n.draw.message, Some(n.start), Some(n.start))
    else
      TimerState(Idle, 0, "No draw scheduled", None, None, None)
  }

  /** `new Date(config.updated_at) > new Date(lastConfigSeenAt || 0)`. */
  predicate ConfigChanged(updatedAt: int, lastSeen: Option<int>) {
    updatedAt > lastSeen.GetOr(0)
  }

  /** The whole route: state plus the configuration when it is newer than the client's copy. */
  function TimerResponse(now: int, located: Located, config: Config, lastSeen: Option<int>): (r: Response)
    ensures r.state == DeriveState(now, located)
    ensures r.config.Some? <==> config.updatedAt > lastSeen.GetOr(0)
    ensures r.config.Some? ==> r.config.value == config
  {
    Response(DeriveState(now, located), if ConfigChanged(config.updatedAt, lastSeen) then Some(config) else None)
  }

  /** A client that has never seen a configuration is sent any configuration stamped after the epoch. */
  lemma FirstRequestGetsConfig(now: int, located: Located, config: Config)
    requires config.updatedAt > 0
    ensures TimerResponse(now, located, config, None).config == Some(config)
  {
  }

  /** A running or imminent draw takes precedence over a recently completed one. */
  lemma NextDrawBeatsRecentlyEnded(now: int, n: Timed, l: Timed)
    requires IsRunning(now, n) || 1000 <= n.start - now < 601000
    requires 0 <= now - l.end < 601000
    ensures DeriveState(now, Located(Some(l), Some(n))).status != Complete
    ensures DeriveState(now, Located(Some(l), Some(n))).status == (if IsRunning(now, n) then Running else PreDraw)
  {
  }

  /** Exactly 600 s before the start the display counts down. */
  lemma PreDrawAt600(now: int, last: Option<Timed>, n: Timed)
    requires n.start - now == 600000
    ensures DeriveState(now, Located(last, Some(n))) == TimerState(PreDraw, 600, n.draw.title, n.draw.message, Some(n.start), None)
  {
  }

  /** At 601 s before the start, when no draw ended in the last 600 s, the display is waiting. */
  lemma WaitingAt601(now: int, last: Option<Timed>, n: Timed)
    requires n.start - now == 601000
    requires last.None? || now - last.value.end >= 601000
    ensures DeriveState(now, Located(last, Some(n))).status == Waiting
  {
  }

  /** At the start instant of a draw with positive length the draw is running. */
  lemma RunningAtStart(now: int, last: Option<Timed>, n: Timed)
    requires n.start == now < n.end
    ensures DeriveState(now, Located(last, Some(n))).status == Running
  {
  }

  /** In the last sub-second before the start the whole-second count is 0, so the
      state falls through to complete or waiting instead of pre_draw. */
  lemma LastSubSecondIsNotPreDraw(now: int, last: Option<Timed>, n: Timed)
    requires 0 < n.start - now < 1000
    ensures Seconds(n.start - now) == 0
    ensures DeriveState(now, Located(last, Some(n))).status in {Complete, Waiting}
  {
  }

  /** The route end to end, with one clock reading shared by the route and
      `getCurrentDraw`: idle only when every draw of the day has ended, and
      always idle on a day without draws. */
  function StateAt(draws: seq<Draw>, dayStart: int, now: int): (r: TimerState)
    ensures r.status == Idle ==> forall i :: 0 <= i < |draws| ==> Ended(draws[i], dayStart, now)
    ensures |draws| == 0 ==> r.status == Idle && r.target.None?
  {
    DeriveState(now, Locate(draws, dayStart, now))
  }

  /** Every draw has ended at `t1` exactly when it has ended at `t2`. */
  predicate SameEnded(draws: seq<Draw>, dayStart: int, t1: int, t2: int) {
    forall i :: 0 <= i < |draws| ==> (Ended(draws[i], dayStart, t1) <==> Ended(draws[i], dayStart, t2))
  }

  lemma {:induction false} ScanSameEnded(draws: seq<Draw>, dayStart: int, t1: int, t2: int, i: nat, last: Option<Timed>)
    requires i <= |draws|
    requires SameEnded(draws, dayStart, t1, t2)
    ensures ScanFrom(draws, dayStart, t1, i, last) == ScanFrom(draws, dayStart, t2, i, last)
    decreases |draws| - i
  {
    if i < |draws| {
      assert Ended(draws[i], dayStart, t1) <==> Ended(draws[i], dayStart, t2);
      ScanSameEnded(draws, dayStart, t1, t2, i + 1, Keep(last, Anchor(draws[i], dayStart)));
    }
  }

  /** The scan looks at the clock only through which draws have ended. */
  lemma LocateSameEnded(draws: seq<Draw>, dayStart: int, t1: int, t2: int)
    ensures SameEnded(draws, dayStart, t1, t2) ==> Locate(draws, dayStart, t1) == Locate(draws, dayStart, t2)
  {
    if SameEnded(draws, dayStart, t1, t2) {
      ScanSameEnded(draws, dayStart, t1, t2, 0, None);
    }
  }

  /** The route as written reads the clock twice: `now` in the route (index.js:35)
      and again inside `getCurrentDraw` (db.js:29), here `scanNow`. The result is
      the single-reading state whenever no draw ends between the two readings. */
  function RouteState(draws: seq<Draw>, dayStart: int, now: int, scanNow: int): (r: TimerState)
    ensures SameEnded(draws, dayStart, now, scanNow) ==> r == StateAt(draws, dayStart, now)
  {
    LocateSameEnded(draws, dayStart, now, scanNow);
    DeriveState(now, Locate(draws, dayStart, scanNow))
  }

  /** One draw, 10:00 for 60 minutes, alone on its day, with the route reading
      the clock 500 ms before its end and the scan reading it at its end: by the
      route's clock the draw is still running, but the scan has already passed
      it, so the route reports complete. (With other draws of the day running or
      about to start, the route reports those instead.) */
  lemma EndBetweenReadsShowsComplete()
    ensures var d := Draw("Draw", None, 600, 60);
            var now := 660 * 60000 - 500;
            var scanNow := 660 * 60000;
            && IsRunning(now, Anchor(d, 0))
            && StateAt([d], 0, now).status == Running
            && RouteState([d], 0, now, scanNow).status == Complete
  {
    var d := Draw("Draw", None, 600, 60);
    assert FirstOpen([d], 0, 660 * 60000 - 500) == 0;
    assert FirstOpen([d], 0, 660 * 60000) == 1;
  }

  /** The rows arrive `ORDER BY start_time`. */
  predicate SortedByStart(draws: seq<Draw>) {
    forall i, j :: 0 <= i < j < |draws| ==> draws[i].startMinutes <= draws[j].startMinutes
  }

  lemma SortedStartsMonotone(draws: seq<Draw>, dayStart: int, k: nat, j: nat)
    requires SortedByStart(draws)
    requires k <= j < |draws|
    ensures StartOf(draws[k], dayStart) <= StartOf(draws[j], dayStart)
  {
    assert draws[k].startMinutes <= draws[j].startMinutes;
  }

  /** With the rows in start order, the display says `running` exactly when some
      draw of the day is in progress, and then it counts down to the end of the
      first-listed such draw. */
  lemma RunningIffSomeDrawInProgress(draws: seq<Draw>, dayStart: int, now: int)
    requires SortedByStart(draws)
    ensures StateAt(draws, dayStart, now).status == Running <==>
              exists i :: 0 <= i < |draws| && IsRunning(now, Anchor(draws[i], dayStart))
    ensures StateAt(draws, dayStart, now).status == Running ==>
              var k := FirstOpen(draws, dayStart, now);
              && k < |draws| && IsRunning(now, Anchor(draws[k], dayStart))
              && (forall j :: 0 <= j < k ==> !IsRunning(now, Anchor(draws[j], dayStart)))
  {
    var k := FirstOpen(draws, dayStart, now);
    if i :| 0 <= i < |draws| && IsRunning(now, Anchor(draws[i], dayStart)) {
      assert !Ended(draws[i], dayStart, now);
      assert k <= i;
      SortedStartsMonotone(draws, dayStart, k, i);
    }
  }

  /** With the rows in start order, when nothing is running the next draw is the
      earliest-starting one still to come. */
  lemma NextIsEarliestUpcoming(draws: seq<Draw>, dayStart: int, now: int)
    requires SortedByStart(draws)
    requires Locate(draws, dayStart, now).next.Some?
    ensures forall j :: 0 <= j < |draws| && !Ended(draws[j], dayStart, now) ==>
              Locate(draws, dayStart, now).next.value.start <= StartOf(draws[j], dayStart)
  {
    var k := FirstOpen(draws, dayStart, now);
    assert k < |draws| && Locate(draws, dayStart, now).next.value == Anchor(draws[k], dayStart);
    forall j | 0 <= j < |draws| && !Ended(draws[j], dayStart, now)
      ensures StartOf(draws[k], dayStart) <= StartOf(draws[j], dayStart)
    {
      assert k <= j;
      SortedStartsMonotone(draws, dayStart, k, j);
    }
  }

  /** Monday 19:00 for 30 minutes, observed at 19:10: running with 1200 s left. */
  lemma ScenarioRunning(dayStart: int)
    ensures var d := Draw("Monday draw", None, 19 * 60, 30);
            var r := StateAt([d], dayStart, dayStart + (19 * 60 + 10) * 60000);
            r.status == Running && r.timeRemaining == 1200
  {
    var d := Draw("Monday draw", None, 19 * 60, 30);
    assert FirstOpen([d], dayStart, dayStart + (19 * 60 + 10) * 60000) == 0;
  }

  /** No draws today: idle, with nothing to count. */
  lemma ScenarioIdle(dayStart: int, now: int)
    ensures StateAt([], dayStart, now) == TimerState(Idle, 0, "No draw scheduled", None, None, None)
  {
  }

  /** A draw that ended at 19:30, observed at 19:35: complete. */
  lemma ScenarioComplete(dayStart: int)
    ensures var d := Draw("Evening", None, 19 * 60, 30);
            var r := StateAt([d], dayStart, dayStart + (19 * 60 + 35) * 60000);
            r.status == Complete && r.timeRemaining == 0
  {
    var d := Draw("Evening", None, 19 * 60, 30);
    assert FirstOpen([d], dayStart, dayStart + (19 * 60 + 35) * 60000) == 1;
  }

  /** A draw that ended at 19:30, observed at 19:41 with another at 21:00: waiting for 21:00. */
  lemma ScenarioWaiting(dayStart: int)
    ensures var a := Draw("Evening", None, 19 * 60, 30);
            var b := Draw("Late", None, 21 * 60, 30);
            var r := StateAt([a, b], dayStart, dayStart + (19 * 60 + 41) * 60000);
            r.status == Waiting && r.target == Some(dayStart + 21 * 60 * 60000)
  {
    var a := Draw("Evening", None, 19 * 60, 30);
    var b := Draw("Late", None, 21 * 60, 30);
    assert FirstOpen([a, b], dayStart, dayStart + (19 * 60 + 41) * 60000) == 1;
  }
}

=== FILE: week.dfy ===
/** The week strip of the admin page (`getCurrentWeekDays`, public/admin.js):
    the seven days Sunday..Saturday of the week that contains today. Days are
    counted from 1970-01-01, which was a Thursday; the `YYYY-MM-DD` text of a
    day is not modelled. */
module Week {
  const DaysOfWeek: seq<string> := ["Sunday", "Monday", "Tuesday", "Wednesday", "Thursday", "Friday", "Saturday"]

  /** `Date.getDay()` of day number `day`: 0 for Sunday .. 6 for Saturday. */
  function Weekday(day: int): (w: int)
    ensures 0 <= w < 7
  {
    (day + 4) % 7
  }

  /** The weekday of `day` read off any way of writing `day + 4` as `7q + w`. */
  lemma WeekdayOf(day: int, q: int, w: int)
    requires 0 <= w < 7 && day + 4 == 7 * q + w
    ensures Weekday(day) == w
  {
    var x := day + 4;
    assert x == 7 * (x / 7) + x % 7;
    assert 7 * (q - x / 7) == x % 7 - w;
  }

  /** `day + 4` split into whole weeks and the weekday. */
  lemma WeekdaySplit(day: int)
    ensures day + 4 == 7 * ((day + 4) / 7) + Weekday(day)
  {
  }

  datatype WeekDay = WeekDay(day: int, name: string)

  /** Seven consecutive days starting on the Sunday on or before `today`, each
      labelled with its own weekday name; today sits at index `Weekday(today)`,
      the `currentDayIndex` the page highlights. */
  function CurrentWeekDays(today: int): (r: seq<WeekDay>)
    ensures |r| == 7
    ensures Weekday(r[0].day) == 0
    ensures forall i :: 0 <= i < 7 ==> r[i].day == r[0].day + i
    ensures forall i :: 0 <= i < 7 ==> r[i].name == DaysOfWeek[i] && r[i].name == DaysOfWeek[Weekday(r[i].day)]
    ensures r[0].day <= today < r[0].day + 7
    ensures r[Weekday(today)].day == today
  {
    var start := today - Weekday(today);
    WeekFrom(start, today);
    seq(7, i requires 0 <= i < 7 => WeekDay(start + i, DaysOfWeek[Weekday(start + i)]))
  }

  lemma WeekFrom(start: int, today: int)
    requires start == today - Weekday(today)
    ensures forall d :: start <= d < start + 7 ==> Weekday(d) == d - start
  {
    WeekdaySplit(today);
    forall d | start <= d < start + 7
      ensures Weekday(d) == d - start
    {
      WeekdayOf(d, (today + 4) / 7, d - start);
    }
  }

  /** Every day of a week produces the same strip: the view does not move while
      the week lasts. */
  lemma SameWeekSameStrip(today: int, other: int)
    requires CurrentWeekDays(today)[0].day <= other < CurrentWeekDays(today)[0].day + 7
    ensures CurrentWeekDays(other) == CurrentWeekDays(today)
  {
    var ra, rb := CurrentWeekDays(today), CurrentWeekDays(other);
    assert rb[0].day <= other < rb[0].day + 7;
    assert -7 < ra[0].day - rb[0].day < 7;
    SundaysApart(ra[0].day, rb[0].day);
    forall i | 0 <= i < 7
      ensures ra[i] == rb[i]
    {
      assert ra[i].name == DaysOfWeek[i] == rb[i].name;
    }
  }

  /** Two Sundays less than a week apart are the same day. */
  lemma SundaysApart(a: int, b: int)
    requires Weekday(a) == 0 && Weekday(b) == 0 && -7 < a - b < 7
    ensures a == b
  {
    WeekdaySplit(a);
    WeekdaySplit(b);
    assert 7 * ((a + 4) / 7 - (b + 4) / 7) == a - b;
  }
}
